=== FILE: README.md ===
# chai-recursive-match, modelled in Dafny

chai-recursive-match adds `expect(x).to.recursive.equal(pattern)` and
`…recursive.include(pattern)` to the chai assertion library. A pattern is a
record whose entries are either literal values, compared by deep equality,
or predicates of the form `to => to.be.gt(1)`. A predicate may itself run a
nested recursive match, and a failure deep inside reports the dotted path
where it happened, such as "(at root.obj2.value)".

The whole behaviour lives in two functions of `src/index.ts`:

- `check` compares one candidate record against one record pattern, key by
  key. It visits the union of the pattern's and the candidate's keys,
  pattern keys first, and skips the extra keys it should ignore. It returns
  the first assertion failure, or null.
- `matchObject` is the assertion itself. It rejects null and ill-shaped
  arguments, then picks a strategy:
  - an array in include mode is searched for one element that matches;
  - an array in equal mode is compared element by element against an
    equally long list of patterns;
  - a record goes through a single `check`.
  Finally it applies the assertion's negation.

The model keeps both as pure, mutually recursive functions over immutable
values (module `Engine`):

- `Check`, with `CheckKeys` and `KeyOutcome`, models `check`;
- `Match`, split into the negation-free `Probe` and `Reporting.Polarity`,
  models `matchObject`;
- `FindOne` and `FirstMismatch` model the `findIndex` and `find` calls.

Each call produces an `Outcome`:

- `Pass`;
- `Fail` with the assertion failure and the message prefix the matcher
  builds;
- `Throw` with any other thrown value, which nobody catches.

A pattern leaf is one of three things:

- `Lit`, a literal value;
- `Pred`, an opaque function of the value that accepts, rejects (fails an
  assertion) or throws;
- `Rec`, the predicate `to => to[.not].recursive.equal|include(p)`. It
  re-enters `Match` at the key's path with the caller's message.

The remaining modules hold the rest of the model:

- `Seqs` and `Values` model JavaScript's `Set` insertion order,
  `Object.keys`, property reads and truthiness.
- `Patterns` models the pattern shapes.
- `Reporting` models the failure messages.
- `CheckProperties`, `MatchProperties` and `PathProperties` prove what the
  two functions promise.
- `AsWritten` keeps the positional branch exactly as the source writes it,
  for the top-level call, beside the corrected one (see Findings). `Engine`
  itself, and every nested match, uses the corrected branch.
- `Scenarios` derives cases from `test/index.spec.ts` from the general
  lemmas.

## Model

| member | source | states |
|---|---|---|
| Seqs.UniqueSpec | src/index.ts:14 | the key set holds every key of either list and no other, each exactly once |
| Seqs.UniqueOrder | src/index.ts:14-17 | the key set lists its keys in the order of their first occurrence, which is the order `keys.forEach` visits them |
| Values.OwnKeysSpec | src/index.ts:14 | a record's own keys are its field keys, without repeats |
| Values.OwnKeysOrder | src/index.ts:14 | a record's own keys come in field order, first occurrence first, and are exactly its field keys when those do not repeat |
| Values.FalsyValues | src/index.ts:91-94 | the values the `err` tests treat as false are exactly undefined, null, false, 0, 0n and the empty string |
| Values.GetSpec | src/index.ts:18 | reading a key that is neither an own key nor the `length` of an array or string gives undefined; a record's own key reads the value of a field with that key; `length` reads the element or character count |
| Values.GetIndex | src/index.ts:18 | key "i" of an array reads element `i`, and of a string the one-character string at `i` |
| Engine.KeyOutcome | src/index.ts:18-37 | models one visited key; a skipped key passes, and an extra key that is not skipped passes exactly when it reads undefined (full behaviour in `CheckProperties.SkipRule` and `KeyVerdict`) |
| Engine.Check | src/index.ts:7-48 | models `check`; a null or undefined candidate throws (full behaviour in `CheckProperties.CheckFirstFailure`) |
| Engine.FindOne | src/index.ts:67-71 | models `findIndex` with a partial `check` at `basePath[i]`; a hit lies in the array and its check did not fail |
| Engine.FirstMismatch | src/index.ts:87-89 | models `find` with an exact `check` of each pair at `basePath[i]`; a hit lies in both lists and its check did not pass |
| Engine.Probe | src/index.ts:55-104 | models `matchObject` before negation, with the positional branch corrected (see Findings); it rejects exactly the arguments whose shapes the null, type and length checks refuse, and only with those checks' reasons |
| Engine.Match | src/index.ts:50-112 | models `matchObject`, with the positional branch corrected (see Findings); ill-shaped arguments always fail with a null, type or length failure, whatever the polarity |
| Engine.VisitedKeysSpec | src/index.ts:14-17 | `check` visits exactly the keys of the pattern or the candidate, each once: all pattern keys first in pattern order, then only candidate keys the pattern lacks |
| CheckProperties.VisitedPatternOrder | src/index.ts:14-17 | when every candidate key is in a repeat-free pattern, keys are visited in exactly the pattern's order |
| CheckProperties.SkipRule | src/index.ts:18-23 | a key missing from the pattern never fails when the candidate holds a method there or the match is partial; otherwise, in an exact match, it passes exactly when its value is undefined and fails with the key's "(at path.key)" message when not |
| CheckProperties.KeyVerdict | src/index.ts:25-37 | a pattern key's outcome: a literal passes exactly when the value deep-equals it, with a leaf-mismatch failure at the key's message otherwise; a predicate's accept, reject or throw becomes the key's outcome; a nested match runs at the key path with the caller's message |
| CheckProperties.KeyOutcomeModes | src/index.ts:21 | partial mode only adds skips: a key it does not skip reports the same outcome in both modes, and a key passing in equal mode passes in include mode |
| CheckProperties.FirstNonPassSpec | src/index.ts:16-38 | the first non-passing outcome of a list is `Pass` exactly when all pass, else the outcome at some index with every earlier one passing |
| CheckProperties.CheckKeysFirstFailure | src/index.ts:16-47 | the key loop passes exactly when every key passes, and otherwise reports the outcome of the first key that does not pass |
| CheckProperties.CheckFirstFailure | src/index.ts:7-48 | `check` succeeds exactly when every visited, non-skipped key passes; otherwise it reports the first such key's failure or throw, never a skipped key's; a null or undefined candidate throws |
| CheckProperties.CheckEqualImpliesInclude | src/index.ts:14-23 | a `check` that succeeds in equal mode also succeeds in include mode |
| CheckProperties.CheckIncludeRestrict | src/index.ts:14-23 | an include-mode `check` that succeeds still succeeds after any keys are deleted from the pattern |
| CheckProperties.LiteralKeyPasses | src/index.ts:37 | each key of a record passes against the record's own value as a literal |
| CheckProperties.LiteralSelfCheck | src/index.ts:7-48 | a record passes an exact `check` against its own fields as literals |
| CheckProperties.FirstPatternKeyDecides | src/index.ts:14-42 | a failing first pattern key is the first key visited, so its failure is the result of `check` |
| CheckProperties.SingleKeyCheck | src/index.ts:14-37 | a candidate with no key other than `key`, checked against a one-entry pattern, gets exactly that entry's leaf outcome at the key path |
| Reporting.Prefix | src/index.ts:26 | the caller's text is followed by one space, or is dropped when empty |
| Reporting.KeyPathParts | src/index.ts:25 | a key path is the parent path, a dot and the key, or the bare key at an empty path |
| Reporting.BasePath | src/index.ts:55 | a match's base path is the one its parent handed down, or "root" when there is none |
| Reporting.Polarity | src/index.ts:106-111 | shape failures and throws pass through; a match fails only when negated, with the "expected to not recursive …" message; a miss fails only when not negated, with its own failure |
| MatchProperties.ShapeChecksNotInverted | src/index.ts:60-102 | null subject or pattern, a wrong pattern shape, a non-record subject and unequal array lengths fail with their own message whatever the polarity; the base path defaults to "root" |
| MatchProperties.NegationInverts | src/index.ts:73-111 | after the shape checks, when nothing throws, exactly one of the un-negated and negated calls passes, and the failing negated one reports "expected to not recursive equal\|include the pattern" |
| MatchProperties.RecordMatch | src/index.ts:101-111 | for a record, the un-negated call has the outcome of one `check` at the base path; the negated call passes exactly when that `check` fails, and a throw passes through |
| MatchProperties.MatchEqualImpliesInclude | src/index.ts:101-111 | a record that recursively equals a pattern also recursively includes it |
| MatchProperties.LiteralSelfMatch | src/index.ts:101-111 | a record recursively equals the pattern made of its own fields |
| MatchProperties.ScanFromFirst | src/index.ts:67-71 | a search misses exactly when no outcome stops it, and otherwise reports the first outcome that does, at its index |
| MatchProperties.FindOneFirst | src/index.ts:67-71 | find-one reports the first element whose partial `check` does not fail, and misses exactly when every element's check fails |
| MatchProperties.IncludeArrayMatch | src/index.ts:63-79 | for an array in include mode, when no check throws: un-negated passes exactly when some element passes a partial `check`, failing with "expected to recursive include the pattern" otherwise; negated passes exactly when none does |
| MatchProperties.FirstMismatchFirst | src/index.ts:87-89 | the positional scan reports the first pair whose exact `check` does not pass, and misses exactly when all pass |
| MatchProperties.EqualArrayMatch | src/index.ts:80-98 | for an array in equal mode against an equally long list: un-negated passes exactly when every element passes an exact `check` against its own pattern, and otherwise reports the first element's failure; negated passes exactly when that outcome is a failure |
| PathProperties.UnderWeaken | src/index.ts:25 | a message that names a location below a path (the path, then `)`, `.` or `[`) names a location below every ancestor of it |
| PathProperties.MatchLocated | src/index.ts:55-58 | every failure a match reports, other than the length check, starts with the caller's text and names its base path followed by `)`, `.` or `[`, that is, the base path or a key or element below it |
| PathProperties.CheckLocated | src/index.ts:25-32 | every failure `check` reports names its path followed by `)`, `.` or `[`, that is, the path or a key or element below it |
| PathProperties.TopLevelFailuresUnderRoot | src/index.ts:55-57 | at the top level every failure other than the length check reads "(at root" or "(pattern at root" followed by `)`, `.` or `[`, after the caller's text |
| AsWritten.MatchAsWritten | src/index.ts:80-98 | `matchObject` with the positional branch as written; the shape checks fail as in the corrected match, and off the array equal-mode branch it is the corrected match |
| AsWritten.PositionalAsWritten | src/index.ts:87-97 | as written, a found element that threw re-throws, the only failure is the negated one, and with no mismatch only the negated call fails |
| AsWritten.PositionalMismatchLost | src/index.ts:87-97 | as written, an un-negated positional mismatch never reports its assertion failure: a truthy element is thrown as a value and a falsy one lets the match pass, where the corrected match reports the failure |
| AsWritten.SecondElementThrown | src/index.ts:87-93 | `[{id:1},{id:2}]` against `[{id:1},{id:3}]`: the corrected match fails "(at root[1].id)"; as written the element `{id:2}` is thrown |
| AsWritten.FalsyElementPasses | src/index.ts:87-97 | `[0]` against `[{a:1}]`: the corrected match fails "(at root[0].a)"; as written it passes, and its negation fails |
| Scenarios.NestedFailureMessage | test/index.spec.ts:71-93 | a predicate failing two levels down reports "(at root.obj2.value)", after "my text " when the caller gives that text |
| Scenarios.MethodSkipped | test/index.spec.ts:17-33 | the record `{a: 1, fn() {}}` matches `{a: 1}` in both modes: its method, like `method1` in the tests, is skipped even in equal mode (the general rule is `CheckProperties.SkipRule`) |

## Left out

- The chai plugin wiring (src/index.ts:6, 114-124). The `recursive` property and its aliases are not modelled. The `util.flag` plumbing becomes explicit parameters: `negate`, the inherited base path and the base message.
- The top-level message flag (src/index.ts:56) may be undefined in JavaScript. The model uses a string, with "" for no message.
- chai's own assertions are foreign code. `deep.eq` becomes `Values.DeepEq`, a structural equality: arrays element-wise, records on their key sets, everything else by identity. The type tests `a('null')`, `an('object')` and `an('array')` become tag tests on `Value`. `have.length` becomes a length comparison.
- chai's rendering of the rest of a failure message (": expected 'B' to be …") is not modelled. A failure carries only the prefix the matcher builds. For the length check, that prefix is "".
- Numbers are integers. There is no floating point, NaN or -0.
- Dates and symbols are `VOpaque` values. The `id` stands for what chai's deep equality compares: a date's time value, a symbol's identity. Bigints are `VBig`, compared by value, and `0n` is falsy.
- Values.Get: a property read sees a record's own fields, the index keys of arrays and strings, and their `length`. Inherited properties (`toString`, a number's methods), a function's own `name` and `length`, and any other non-enumerable property read as undefined. `key in pattern` likewise sees only the pattern's own entries. Strings are sequences of Unicode characters, not of UTF-16 code units. So a string holding a character outside the Basic Multilingual Plane (an emoji, say) has fewer index keys and a smaller `length` than in JavaScript, and an index read never yields half of a surrogate pair. For example, `"😀".length` is 2 in JavaScript and 1 here.
- JavaScript lists integer-like record keys first in ascending order. The model keeps fields in insertion order.
- Predicate bodies from the tests (`gt`, `match`, `deep.contain`, `a('string')`) are opaque functions from a value to accept, reject or throw. A predicate that runs a nested match is modelled only as the `Rec` leaf.
- Engine.LeafOutcome: a rejecting predicate always fails with the key's own "(at keyPath)" message. In JavaScript a predicate can fail with a message of its own: chai's optional message argument (`to.be.gt(1, 'x')`), `expect.fail(…)`, or a fresh `expect(…)` on another value. `check` returns such a failure unchanged (src/index.ts:39-41). `PathProperties.CheckLocated`, `PathProperties.MatchLocated` and `PathProperties.TopLevelFailuresUnderRoot` hold only under this assumption.
- Patterns.Leaf: a `Lit` leaf holding a function value is compared by identity. The source calls every function-valued pattern entry as a predicate, so patterns taken from the source never contain one.
- Patterns.Restrict: its own contract states only that kept entries have kept keys and that none are added. `Patterns.RestrictKeys` states the full property.
- MatchProperties.IncludeArrayMatch: states the include-mode outcome only when no element's check throws. With a throw before the first passing element, `MatchProperties.FindOneFirst` gives the search result, and the call then throws.
- AsWritten.MatchAsWritten: the as-written positional branch is modelled for the top-level call only. Nested `Rec` leaves use the corrected engine. As written, a nested positional mismatch throws the element. That is not an assertion failure, so `check` re-throws it (src/index.ts:40-44), and it aborts every enclosing match, which neither an outer negation nor an include search can absorb. For example, `expect({xs: [{id: 2}]}).to.not.recursive.equal({xs: to => to.recursive.equal([{id: 3}])})` throws `{id: 2}` in JavaScript, while `Engine.Match` and `AsWritten.MatchAsWritten` both pass it.
- Only `equal`, `include`, `equals` and `includes` are registered (src/index.ts:118-123). The `rec`/`eq` aliases used at test/index.spec.ts:95-99 are not, so that test is not modelled.
- src/types.ts holds only type declarations. It shaped the `Pattern` and `Leaf` datatypes and has no behaviour.
- The scenario values in `Scenarios` are trimmed to the keys each property needs.

## Findings

| source | as written | input that shows it | evidently intended | confidence | as-written member | corrected member |
|---|---|---|---|---|---|---|
| src/index.ts:87-93 | `objs.find` returns the failing element, not the error `check` produced, and line 92 throws that element | `expect([{id:1},{id:2}]).to.recursive.equal([{id:1},{id:3}])` | throw the assertion failure "(at root[1].id)" of the first mismatching element | not executed | AsWritten.SecondElementThrown | MatchProperties.EqualArrayMatch |
| src/index.ts:87-97 | the element `find` returned doubles as the "did it fail" flag, so a falsy failing element counts as no mismatch | `expect([0]).to.recursive.equal([{a:1}])` passes, and its negation fails | fail with "(at root[0].a)", and let the negation pass | not executed | AsWritten.FalsyElementPasses | MatchProperties.EqualArrayMatch |

=== FILE: as_written.dfy ===
/** The positional array match of `matchObject` exactly as the source
    writes it. `objs.find(...)` returns the first element whose `check`
    reports an error, not that error; the result is then used both as the
    thing thrown and as the "did it fail" flag. So an un-negated mismatch
    throws the element itself instead of the assertion failure with its
    "(at root[i].key)" message, and a mismatching element that is falsy
    (0, "", false) counts as no mismatch at all. `Engine.Match` models the
    evidently intended behaviour; this module keeps the written one beside
    it, for the top-level call. */
module AsWritten {
  import opened Seqs
  import opened Values
  import opened Patterns
  import opened Reporting
  import opened Engine
  import opened CheckProperties
  import opened MatchProperties

  /** Lines 87-97 as written: `err` is the element `find` returned, or
      undefined when every pair passed. */
  function PositionalAsWritten(elems: seq<Value>, scan: Scan, negate: bool, objMsg: string): (r: Outcome)
    ensures scan.Hit? && scan.outcome.Throw? ==> r == scan.outcome
    ensures r.Fail? ==> r.failure == Failure(MatchedWhenNegated, NegatedMessage(objMsg, "equal"))
    ensures scan.Miss? ==> (r.Pass? <==> !negate)
  {
    if scan.Hit? && scan.outcome.Throw? then scan.outcome
    else
      var err := if scan.Hit? && scan.ix < |elems| then elems[scan.ix] else VUndefined;
      if Truthy(err) && !negate then Throw(Raised(err))
      else if negate && !Truthy(err) then Fail(Failure(MatchedWhenNegated, NegatedMessage(objMsg, "equal")))
      else Pass
  }

  /** `matchObject` with the positional branch as written. The shape checks
      are unaffected, and off the positional branch it is the corrected
      match. */
  function MatchAsWritten(obj: Value, pattern: Pattern, partial: bool, negate: bool, pathFlag: string, baseMsg: string): (r: Outcome)
    ensures !WellShaped(obj, pattern, partial) ==> r.Fail? && ShapeReason(r.failure.reason)
    ensures !(obj.VArr? && !partial) ==> r == Match(obj, pattern, partial, negate, pathFlag, baseMsg)
  {
    var basePath := BasePath(pathFlag);
    if obj.VArr? && !partial && pattern.PList? && |obj.elems| == |pattern.items| then
      PositionalAsWritten(obj.elems, FirstMismatch(obj.elems, pattern.items, basePath, baseMsg, 0),
        negate, AtMessage(baseMsg, basePath))
    else Match(obj, pattern, partial, negate, pathFlag, baseMsg)
  }

  /** As written, an un-negated positional mismatch never surfaces as the
      element's assertion failure: a truthy element is thrown as a plain
      value, and a falsy one lets the match pass. The intended behaviour
      reports the element's failure. */
  lemma PositionalMismatchLost(elems: seq<Value>, items: seq<SinglePattern>, pathFlag: string, baseMsg: string)
    requires |elems| == |items|
    ensures var r := FirstMismatch(elems, items, BasePath(pathFlag), baseMsg, 0);
      r.Hit? && r.outcome.Fail? ==>
        && Match(VArr(elems), PList(items), false, false, pathFlag, baseMsg) == r.outcome
        && (Truthy(elems[r.ix]) ==>
              MatchAsWritten(VArr(elems), PList(items), false, false, pathFlag, baseMsg) == Throw(Raised(elems[r.ix])))
        && (!Truthy(elems[r.ix]) ==>
              MatchAsWritten(VArr(elems), PList(items), false, false, pathFlag, baseMsg) == Pass)
  {
    FirstMismatchFirst(elems, items, BasePath(pathFlag), baseMsg);
  }

  function Rec1(key: string, v: Value): (rec: Value) {
    VObj([Field(key, v)])
  }

  function Pat1(key: string, v: Value): (p: SinglePattern) {
    SinglePattern([Entry(key, Lit(v))])
  }

  lemma OneKeyCheck(key: string, v: Value, w: Value, path: string)
    ensures Check(Rec1(key, v), Pat1(key, w), path, "", false) ==
      if DeepEq(v, w) then Pass else Fail(Failure(LeafMismatch, AtMessage("", KeyPath(path, key))))
  {
    var obj := Rec1(key, v);
    assert FieldKeys(obj.fields) == [key];
    OwnKeysSpec(obj);
    assert Get(obj, key) == v;
    SingleKeyCheck(obj, key, Lit(w), path, "", false);
  }

  lemma ExamplePaths()
    ensures ElementPath("root", 0) == "root[0]"
    ensures ElementPath("root", 1) == "root[1]"
    ensures AtMessage("", KeyPath("root[1]", "id")) == "(at root[1].id)"
  {
    assert NatToString(0) == "0" && NatToString(1) == "1";
  }

  lemma SecondElementScan()
    ensures FirstMismatch([Rec1("id", VNum(1)), Rec1("id", VNum(2))], [Pat1("id", VNum(1)), Pat1("id", VNum(3))], "root", "", 0)
      == Hit(1, Fail(Failure(LeafMismatch, "(at root[1].id)")))
  {
    var elems := [Rec1("id", VNum(1)), Rec1("id", VNum(2))];
    var items := [Pat1("id", VNum(1)), Pat1("id", VNum(3))];
    ExamplePaths();
    OneKeyCheck("id", VNum(1), VNum(1), "root[0]");
    OneKeyCheck("id", VNum(2), VNum(3), "root[1]");
    var o0 := Check(elems[0], items[0], "root[0]", "", false);
    var o1 := Check(elems[1], items[1], "root[1]", "", false);
    assert o0 == Pass;
    assert o1 == Fail(Failure(LeafMismatch, "(at root[1].id)"));
    assert FirstMismatch(elems, items, "root", "", 1) == Hit(1, o1);
  }

  /** `[{id: 1}, {id: 2}]` against `[{id: 1}, {id: 3}]` in equal mode: the
      intended failure is at "(at root[1].id)", but as written the second
      element itself is thrown. */
  lemma SecondElementThrown()
    ensures var elems := [Rec1("id", VNum(1)), Rec1("id", VNum(2))];
      var items := [Pat1("id", VNum(1)), Pat1("id", VNum(3))];
      && Match(VArr(elems), PList(items), false, false, "", "") ==
           Fail(Failure(LeafMismatch, "(at root[1].id)"))
      && MatchAsWritten(VArr(elems), PList(items), false, false, "", "") ==
           Throw(Raised(Rec1("id", VNum(2))))
  {
    SecondElementScan();
  }

  lemma FalsyElementCheck()
    ensures Check(VNum(0), Pat1("a", VNum(1)), "root[0]", "", false) == Fail(Failure(LeafMismatch, "(at root[0].a)"))
  {
    SingleKeyCheck(VNum(0), "a", Lit(VNum(1)), "root[0]", "", false);
    assert Get(VNum(0), "a") == VUndefined;
    FalsyPath();
  }

  lemma FalsyPath()
    ensures AtMessage("", KeyPath("root[0]", "a")) == "(at root[0].a)"
  {
    assert KeyPath("root[0]", "a") == "root[0].a";
  }

  lemma FalsyElementScan()
    ensures FirstMismatch([VNum(0)], [Pat1("a", VNum(1))], "root", "", 0) ==
      Hit(0, Fail(Failure(LeafMismatch, "(at root[0].a)")))
  {
    ExamplePaths();
    FalsyElementCheck();
  }

  /** `[0]` against `[{a: 1}]` in equal mode: the element fails its check,
      but because the element is falsy the match as written passes (and its
      negation fails); the intended match fails at "(at root[0].a)". */
  lemma FalsyElementPasses()
    ensures
      && Match(VArr([VNum(0)]), PList([Pat1("a", VNum(1))]), false, false, "", "") ==
           Fail(Failure(LeafMismatch, "(at root[0].a)"))
      && MatchAsWritten(VArr([VNum(0)]), PList([Pat1("a", VNum(1))]), false, false, "", "") == Pass
      && MatchAsWritten(VArr([VNum(0)]), PList([Pat1("a", VNum(1))]), false, true, "", "").Fail?
  {
    FalsyElementScan();
    assert BasePath("") == "root";
    assert !Truthy(VNum(0));
  }
}

=== FILE: check_properties.dfy ===
/** Properties of `check`: which keys it visits and skips, what a single
    key reports, first-failure semantics, and the monotonicity of partial
    mode. */
module CheckProperties {
  import opened Seqs
  import opened Values
  import opened Patterns
  import opened Reporting
  import opened Engine

  /** The skip rule. A key the pattern lacks never fails when the candidate
      holds a method there or the match is partial; in an exact match any
      other extra key that holds something other than undefined fails, as a
      comparison against undefined. */
  lemma SkipRule(obj: Value, p: SinglePattern, path: string, baseMsg: string, partial: bool, key: string)
    ensures !HasKey(p, key) && (Get(obj, key).VFn? || partial) ==>
      KeyOutcome(obj, p, path, baseMsg, partial, key) == Pass
    ensures !HasKey(p, key) && !partial && !Get(obj, key).VFn? ==>
      (KeyOutcome(obj, p, path, baseMsg, partial, key) == Pass <==> Get(obj, key) == VUndefined)
    ensures !HasKey(p, key) && !partial && !Get(obj, key).VFn? && Get(obj, key) != VUndefined ==>
      KeyOutcome(obj, p, path, baseMsg, partial, key) ==
        Fail(Failure(LeafMismatch, AtMessage(baseMsg, KeyPath(path, key))))
  {
  }

  /** What one non-skipped key reports: a literal leaf passes exactly when
      the value deep-equals it; a predicate passes when it accepts, and its
      rejection or throw is the key's outcome; a nested match's outcome is
      the key's outcome. Leaf failures carry the key's own message. */
  lemma KeyVerdict(obj: Value, p: SinglePattern, path: string, baseMsg: string, partial: bool, key: string)
    requires HasKey(p, key)
    ensures var leaf := p.entries[EntryIndex(p, key)].leaf;
      var o := KeyOutcome(obj, p, path, baseMsg, partial, key);
      var msg := AtMessage(baseMsg, KeyPath(path, key));
      && (leaf.Lit? ==> (o.Pass? <==> DeepEq(Get(obj, key), leaf.expected)) && (!o.Pass? ==> o == Fail(Failure(LeafMismatch, msg))))
      && (leaf.Pred? && leaf.test(Get(obj, key)) == Accept ==> o == Pass)
      && (leaf.Pred? && leaf.test(Get(obj, key)) == Reject ==> o == Fail(Failure(PredicateRejected, msg)))
      && (leaf.Pred? && leaf.test(Get(obj, key)).Raise? ==> o == Throw(Raised(leaf.test(Get(obj, key)).thrown)))
      && (leaf.Rec? ==> o == Match(Get(obj, key), leaf.nested, leaf.partial, leaf.negate, KeyPath(path, key), baseMsg))
  {
  }

  /** The first outcome that is not `Pass`, or `Pass` when there is none. A
      proof device over outcomes computed in advance: `CheckKeysIsFirstNonPass`
      ties it back to the engine's `CheckKeys`. */
  function FirstNonPass(os: seq<Outcome>): (r: Outcome) {
    if |os| == 0 then Pass
    else if os[0].Pass? then FirstNonPass(os[1..])
    else os[0]
  }

  lemma {:induction false} FirstNonPassSpec(os: seq<Outcome>)
    ensures FirstNonPass(os) == Pass <==> forall i :: 0 <= i < |os| ==> os[i] == Pass
    ensures FirstNonPass(os) != Pass ==>
      exists j :: 0 <= j < |os| && FirstNonPass(os) == os[j] && forall i :: 0 <= i < j ==> os[i] == Pass
  {
    if |os| > 0 {
      var tail := os[1..];
      FirstNonPassSpec(tail);
      if os[0].Pass? {
        assert forall i :: 1 <= i < |os| ==> os[i] == tail[i - 1];
        if FirstNonPass(tail) != Pass {
          var j :| 0 <= j < |tail| && FirstNonPass(tail) == tail[j] && forall i :: 0 <= i < j ==> tail[i] == Pass;
          assert os[j + 1] == tail[j];
          assert forall i :: 0 <= i < j + 1 ==> os[i] == Pass by {
            forall i | 0 <= i < j + 1 ensures os[i] == Pass {
              if i > 0 { assert os[i] == tail[i - 1]; }
            }
          }
        }
      }
    }
  }

  /** The outcome of each key in turn. */
  function KeyOutcomes(obj: Value, p: SinglePattern, path: string, baseMsg: string, partial: bool, keys: seq<string>): (os: seq<Outcome>)
    ensures |os| == |keys|
  {
    seq(|keys|, i requires 0 <= i < |keys| => KeyOutcome(obj, p, path, baseMsg, partial, keys[i]))
  }

  lemma {:induction false} CheckKeysIsFirstNonPass(obj: Value, p: SinglePattern, path: string, baseMsg: string, partial: bool, keys: seq<string>)
    ensures CheckKeys(obj, p, path, baseMsg, partial, keys) == FirstNonPass(KeyOutcomes(obj, p, path, baseMsg, partial, keys))
  {
    if |keys| > 0 {
      var os := KeyOutcomes(obj, p, path, baseMsg, partial, keys);
      CheckKeysIsFirstNonPass(obj, p, path, baseMsg, partial, keys[1..]);
      assert os[1..] == KeyOutcomes(obj, p, path, baseMsg, partial, keys[1..]);
      assert os[0] == KeyOutcome(obj, p, path, baseMsg, partial, keys[0]);
    }
  }

  /** `CheckKeys` stops at the first key that does not pass and reports it. */
  lemma CheckKeysFirstFailure(obj: Value, p: SinglePattern, path: string, baseMsg: string, partial: bool, keys: seq<string>)
    ensures CheckKeys(obj, p, path, baseMsg, partial, keys) == Pass <==>
      forall i :: 0 <= i < |keys| ==> KeyOutcome(obj, p, path, baseMsg, partial, keys[i]) == Pass
    ensures CheckKeys(obj, p, path, baseMsg, partial, keys) != Pass ==>
      exists j :: 0 <= j < |keys|
        && CheckKeys(obj, p, path, baseMsg, partial, keys) == KeyOutcome(obj, p, path, baseMsg, partial, keys[j])
        && forall i :: 0 <= i < j ==> KeyOutcome(obj, p, path, baseMsg, partial, keys[i]) == Pass
  {
    var os := KeyOutcomes(obj, p, path, baseMsg, partial, keys);
    CheckKeysIsFirstNonPass(obj, p, path, baseMsg, partial, keys);
    FirstNonPassSpec(os);
    forall i | 0 <= i < |keys| ensures os[i] == KeyOutcome(obj, p, path, baseMsg, partial, keys[i]) { }
    if FirstNonPass(os) != Pass {
      var j :| 0 <= j < |os| && FirstNonPass(os) == os[j] && forall i :: 0 <= i < j ==> os[i] == Pass;
      assert CheckKeys(obj, p, path, baseMsg, partial, keys) == KeyOutcome(obj, p, path, baseMsg, partial, keys[j]);
    }
  }

  /** `check` returns null exactly when every visited key that is not
      skipped passes; otherwise it reports the first visited key that does
      not pass, which is never a skipped one. Taking the keys of null or
      undefined throws instead. */
  lemma CheckFirstFailure(obj: Value, p: SinglePattern, path: string, baseMsg: string, partial: bool)
    ensures obj.VNull? || obj.VUndefined? ==> Check(obj, p, path, baseMsg, partial) == Throw(NullishKeys)
    ensures !(obj.VNull? || obj.VUndefined?) ==>
      (Check(obj, p, path, baseMsg, partial) == Pass <==>
        forall k :: k in VisitedKeys(p, obj) && !Skipped(p, obj, partial, k) ==>
          KeyOutcome(obj, p, path, baseMsg, partial, k) == Pass)
    ensures !(obj.VNull? || obj.VUndefined?) && Check(obj, p, path, baseMsg, partial) != Pass ==>
      var ks := VisitedKeys(p, obj);
      exists j :: 0 <= j < |ks|
        && !Skipped(p, obj, partial, ks[j])
        && Check(obj, p, path, baseMsg, partial) == KeyOutcome(obj, p, path, baseMsg, partial, ks[j])
        && forall i :: 0 <= i < j ==> KeyOutcome(obj, p, path, baseMsg, partial, ks[i]) == Pass
  {
    if !(obj.VNull? || obj.VUndefined?) {
      CheckKeysFirstFailure(obj, p, path, baseMsg, partial, VisitedKeys(p, obj));
    }
  }

  /** Partial mode changes nothing but the skip rule: a key it does not skip
      reports the same outcome in both modes. */
  lemma KeyOutcomeModes(obj: Value, p: SinglePattern, path: string, baseMsg: string, key: string)
    ensures !Skipped(p, obj, true, key) ==>
      KeyOutcome(obj, p, path, baseMsg, true, key) == KeyOutcome(obj, p, path, baseMsg, false, key)
    ensures KeyOutcome(obj, p, path, baseMsg, false, key) == Pass ==>
      KeyOutcome(obj, p, path, baseMsg, true, key) == Pass
  {
  }

  /** A `check` that succeeds in equal mode also succeeds in include mode. */
  lemma CheckEqualImpliesInclude(obj: Value, p: SinglePattern, path: string, baseMsg: string)
    ensures Check(obj, p, path, baseMsg, false) == Pass ==> Check(obj, p, path, baseMsg, true) == Pass
  {
    if !(obj.VNull? || obj.VUndefined?) {
      var ks := VisitedKeys(p, obj);
      CheckKeysFirstFailure(obj, p, path, baseMsg, false, ks);
      CheckKeysFirstFailure(obj, p, path, baseMsg, true, ks);
      forall i | 0 <= i < |ks| ensures
        KeyOutcome(obj, p, path, baseMsg, false, ks[i]) == Pass ==> KeyOutcome(obj, p, path, baseMsg, true, ks[i]) == Pass
      {
        KeyOutcomeModes(obj, p, path, baseMsg, ks[i]);
      }
    }
  }

  /** An include-mode `check` that succeeds still succeeds after any keys
      are deleted from the pattern. */
  lemma CheckIncludeRestrict(obj: Value, p: SinglePattern, keep: set<string>, path: string, baseMsg: string)
    ensures Check(obj, p, path, baseMsg, true) == Pass ==> Check(obj, Restrict(p, keep), path, baseMsg, true) == Pass
  {
    var r := Restrict(p, keep);
    RestrictKeys(p, keep);
    if !(obj.VNull? || obj.VUndefined?) && Check(obj, p, path, baseMsg, true) == Pass {
      var ks := VisitedKeys(p, obj);
      var rks := VisitedKeys(r, obj);
      VisitedKeysSpec(p, obj);
      VisitedKeysSpec(r, obj);
      CheckKeysFirstFailure(obj, p, path, baseMsg, true, ks);
      CheckKeysFirstFailure(obj, r, path, baseMsg, true, rks);
      forall i | 0 <= i < |rks| ensures KeyOutcome(obj, r, path, baseMsg, true, rks[i]) == Pass {
        var k := rks[i];
        if HasKey(r, k) {
          assert HasKey(p, k);
          assert k in ks;
          var j :| 0 <= j < |ks| && ks[j] == k;
          assert KeyOutcome(obj, p, path, baseMsg, true, ks[j]) == Pass;
        }
      }
    }
  }

  lemma LiteralKeyPasses(fs: seq<Field>, path: string, baseMsg: string, k: string)
    requires k in FieldKeys(fs)
    ensures KeyOutcome(VObj(fs), Literalize(fs), path, baseMsg, false, k) == Pass
  {
    var obj := VObj(fs);
    var p := Literalize(fs);
    assert HasKey(p, k);
    var j := EntryIndex(p, k);
    assert j == IndexOf(FieldKeys(fs), k);
    assert p.entries[j].leaf == Lit(fs[j].val);
    assert Get(obj, k) == fs[j].val;
    DeepEqReflexive(fs[j].val);
    assert LeafOutcome(Get(obj, k), p.entries[j].leaf, KeyPath(path, k), baseMsg) == Pass;
  }

  /** A record matched against its own fields as literals passes in equal
      mode. */
  lemma LiteralSelfCheck(fs: seq<Field>, path: string, baseMsg: string)
    ensures Check(VObj(fs), Literalize(fs), path, baseMsg, false) == Pass
  {
    var obj := VObj(fs);
    var p := Literalize(fs);
    var ks := VisitedKeys(p, obj);
    VisitedKeysSpec(p, obj);
    OwnKeysSpec(obj);
    CheckKeysFirstFailure(obj, p, path, baseMsg, false, ks);
    forall i | 0 <= i < |ks| ensures KeyOutcome(obj, p, path, baseMsg, false, ks[i]) == Pass {
      assert HasKey(p, ks[i]);
      LiteralKeyPasses(fs, path, baseMsg, ks[i]);
    }
  }

  /** When the pattern's first key does not pass, it decides `check`: it is
      the first key visited. */
  lemma FirstPatternKeyDecides(obj: Value, p: SinglePattern, path: string, baseMsg: string, partial: bool)
    requires |p.entries| > 0 && !(obj.VNull? || obj.VUndefined?)
    requires KeyOutcome(obj, p, path, baseMsg, partial, p.entries[0].key) != Pass
    ensures Check(obj, p, path, baseMsg, partial) == KeyOutcome(obj, p, path, baseMsg, partial, p.entries[0].key)
  {
    var pk := EntryKeys(p);
    var r := VisitedKeys(p, obj);
    VisitedKeysSpec(p, obj);
    UniqueHead(pk);
    assert r[0] == pk[0];
    assert Check(obj, p, path, baseMsg, partial) == CheckKeys(obj, p, path, baseMsg, partial, r);
  }

  /** A record whose own keys are all in a duplicate-free pattern is visited
      in the pattern's key order. */
  lemma VisitedPatternOrder(obj: Value, p: SinglePattern)
    requires Distinct(EntryKeys(p))
    requires forall k :: k in OwnKeys(obj) ==> HasKey(p, k)
    ensures VisitedKeys(p, obj) == EntryKeys(p)
  {
    var pk := EntryKeys(p);
    var r := VisitedKeys(p, obj);
    VisitedKeysSpec(p, obj);
    UniqueOfDistinct(pk);
    assert pk <= r;
    if |r| > 0 {
      var last := r[|r| - 1];
      assert last in OwnKeys(obj) || HasKey(p, last);
      assert last in pk;
      DistinctPrefixIndex(r, pk, |r| - 1);
    }
  }

  /** A record with no keys but `key`, against a one-key pattern, is decided
      by that key's leaf. */
  lemma SingleKeyCheck(obj: Value, key: string, leaf: Leaf, path: string, baseMsg: string, partial: bool)
    requires !(obj.VNull? || obj.VUndefined?)
    requires forall k :: k in OwnKeys(obj) ==> k == key
    ensures Check(obj, SinglePattern([Entry(key, leaf)]), path, baseMsg, partial) ==
      LeafOutcome(Get(obj, key), leaf, KeyPath(path, key), baseMsg)
  {
    var p := SinglePattern([Entry(key, leaf)]);
    assert EntryKeys(p) == [key];
    VisitedPatternOrder(obj, p);
    assert HasKey(p, key) && EntryIndex(p, key) == 0;
    assert CheckKeys(obj, p, path, baseMsg, partial, [key]) == KeyOutcome(obj, p, path, baseMsg, partial, key) by {
      assert [key][1..] == [];
    }
  }
}

=== FILE: engine.dfy ===
/** The matching engine: `check`, which compares one candidate against one
    record pattern key by key, and `matchObject`, which validates the
    shapes of its arguments, picks the array or record strategy, and
    applies negation. A `Rec` leaf re-enters `Match`, so the two are
    mutually recursive, descending through the pattern. */
module Engine {
  import opened Seqs
  import opened Values
  import opened Patterns
  import opened Reporting

  /** Keys `check` visits, in order: `new Set(keys(pattern).concat(keys(obj)))`. */
  function VisitedKeys(p: SinglePattern, obj: Value): (ks: seq<string>) {
    Unique(EntryKeys(p) + OwnKeys(obj))
  }

  /** `check` visits every pattern key and every own key of the candidate,
      each once: the pattern's keys first, in order, then the candidate's
      keys the pattern lacks. */
  lemma VisitedKeysSpec(p: SinglePattern, obj: Value)
    ensures Distinct(VisitedKeys(p, obj))
    ensures forall k :: k in VisitedKeys(p, obj) <==> HasKey(p, k) || k in OwnKeys(obj)
    ensures Unique(EntryKeys(p)) <= VisitedKeys(p, obj)
    ensures forall i :: |Unique(EntryKeys(p))| <= i < |VisitedKeys(p, obj)| ==>
      !HasKey(p, VisitedKeys(p, obj)[i]) && VisitedKeys(p, obj)[i] in OwnKeys(obj)
  {
    UniqueSpec(EntryKeys(p) + OwnKeys(obj));
    UniqueConcat(EntryKeys(p), OwnKeys(obj));
  }

  /** A key `check` skips: absent from the pattern, and either a method on
      the candidate or a partial match. */
  predicate Skipped(p: SinglePattern, obj: Value, partial: bool, key: string) {
    !HasKey(p, key) && (Get(obj, key).VFn? || partial)
  }

  /** A literal leaf: deep equality against the expected value. */
  function LiteralOutcome(val: Value, expected: Value, msg: string): (r: Outcome)
    ensures r.Pass? <==> DeepEq(val, expected)
    ensures !r.Pass? ==> r == Fail(Failure(LeafMismatch, msg))
  {
    if DeepEq(val, expected) then Pass else Fail(Failure(LeafMismatch, msg))
  }

  /** One leaf run against the value at `keyPath`. A predicate's assertion
      carries the key's message; a nested match runs with the key path as its
      base path and the caller's text as its base message. */
  function LeafOutcome(val: Value, leaf: Leaf, keyPath: string, baseMsg: string): (r: Outcome)
    decreases leaf, 0, 0
  {
    match leaf
    case Lit(v) => LiteralOutcome(val, v, AtMessage(baseMsg, keyPath))
    case Pred(test) =>
      (match test(val)
       case Accept => Pass
       case Reject => Fail(Failure(PredicateRejected, AtMessage(baseMsg, keyPath)))
       case Raise(e) => Throw(Raised(e)))
    case Rec(partial, negate, q) => Match(val, q, partial, negate, keyPath, baseMsg)
  }

  /** One visited key of `check`. A key missing from the pattern that is not
      skipped is compared with `pattern[key]`, which reads as undefined. */
  function KeyOutcome(obj: Value, p: SinglePattern, path: string, baseMsg: string, partial: bool, key: string): (r: Outcome)
    ensures Skipped(p, obj, partial, key) ==> r == Pass
    ensures !HasKey(p, key) && !Skipped(p, obj, partial, key) ==> (r.Pass? <==> Get(obj, key) == VUndefined)
    decreases p, 1, 0
  {
    if Skipped(p, obj, partial, key) then Pass
    else
      var val := Get(obj, key);
      var keyPath := KeyPath(path, key);
      var i := EntryIndex(p, key);
      if i < 0 then LiteralOutcome(val, VUndefined, AtMessage(baseMsg, keyPath))
      else LeafOutcome(val, p.entries[i].leaf, keyPath, baseMsg)
  }

  /** The keys in order, stopping at the first that does not pass. */
  function CheckKeys(obj: Value, p: SinglePattern, path: string, baseMsg: string, partial: bool, keys: seq<string>): (r: Outcome)
    decreases p, 2, |keys|
  {
    if |keys| == 0 then Pass
    else
      var o := KeyOutcome(obj, p, path, baseMsg, partial, keys[0]);
      if o.Pass? then CheckKeys(obj, p, path, baseMsg, partial, keys[1..]) else o
  }

  /** `check`: the first failing key's failure, or `Pass`. Taking the keys
      of null or undefined throws. */
  function Check(obj: Value, p: SinglePattern, path: string, baseMsg: string, partial: bool): (r: Outcome)
    ensures obj.VNull? || obj.VUndefined? ==> r == Throw(NullishKeys)
    decreases p, 3, 0
  {
    if obj.VNull? || obj.VUndefined? then Throw(NullishKeys)
    else CheckKeys(obj, p, path, baseMsg, partial, VisitedKeys(p, obj))
  }

  /** The first element at or after `i` that decides an array search, with
      its `check` outcome. */
  datatype Scan = Hit(ix: nat, outcome: Outcome) | Miss

  /** `findIndex` over the elements with a partial `check`: the first
      element that passes, unless an earlier one throws. */
  function FindOne(elems: seq<Value>, p: SinglePattern, basePath: string, baseMsg: string, i: nat): (r: Scan)
    ensures r.Hit? ==> i <= r.ix < |elems| && !r.outcome.Fail?
    decreases p, 4, |elems| - i
  {
    if i >= |elems| then Miss
    else
      var o := Check(elems[i], p, ElementPath(basePath, i), baseMsg, true);
      if o.Fail? then FindOne(elems, p, basePath, baseMsg, i + 1) else Hit(i, o)
  }

  /** `find` over the element/pattern pairs with an exact `check`: the first
      pair that does not pass. */
  function FirstMismatch(elems: seq<Value>, items: seq<SinglePattern>, basePath: string, baseMsg: string, i: nat): (r: Scan)
    ensures r.Hit? ==> i <= r.ix < |elems| && r.ix < |items| && !r.outcome.Pass?
    decreases PList(items), 4, |elems| - i
  {
    if i >= |elems| || i >= |items| then Miss
    else
      var o := Check(elems[i], items[i], ElementPath(basePath, i), baseMsg, false);
      if o.Pass? then FirstMismatch(elems, items, basePath, baseMsg, i + 1) else Hit(i, o)
  }

  /** The argument shapes `matchObject` accepts before it compares anything:
      neither is null; an array in include mode takes a record pattern, an
      array in equal mode a pattern list of its own length, and any other
      subject must be a record with a record pattern. */
  predicate WellShaped(obj: Value, pattern: Pattern, partial: bool) {
    && !obj.VNull? && !pattern.PNull?
    && if obj.VArr? then
         if partial then pattern.PSingle? else pattern.PList? && |obj.elems| == |pattern.items|
       else obj.VObj? && pattern.PSingle?
  }

  /** The failures of the null, type and length checks. */
  predicate ShapeReason(reason: Reason) {
    reason in {NullSubject, NullPattern, SubjectNotRecord, PatternNotRecord, PatternNotList, LengthMismatch}
  }

  /** `matchObject` without its polarity: the null and type checks, then
      find-one for an array in include mode, a length check and pairwise
      comparison for an array in equal mode, or one `check` for a record. */
  function Probe(obj: Value, pattern: Pattern, partial: bool, basePath: string, baseMsg: string): (r: Comparison)
    ensures r.Rejected? <==> !WellShaped(obj, pattern, partial)
    ensures r.Rejected? ==> ShapeReason(r.failure.reason)
    decreases pattern, 5, 0
  {
    var objMsg := AtMessage(baseMsg, basePath);
    var patternMsg := PatternMessage(baseMsg, basePath);
    if obj.VNull? then Rejected(Failure(NullSubject, objMsg))
    else if pattern.PNull? then Rejected(Failure(NullPattern, patternMsg))
    else if obj.VArr? && partial then
      if !pattern.PSingle? then Rejected(Failure(PatternNotRecord, patternMsg))
      else
        match FindOne(obj.elems, pattern.single, basePath, baseMsg, 0)
        case Miss => Missed(Failure(NoMatchingElement, MissMessage(objMsg, Operation(partial))))
        case Hit(_, o) => if o.Throw? then Crashed(o.error) else Matched
    else if obj.VArr? then
      if !pattern.PList? then Rejected(Failure(PatternNotList, patternMsg))
      else if |obj.elems| != |pattern.items| then Rejected(Failure(LengthMismatch, ""))
      else
        match FirstMismatch(obj.elems, pattern.items, basePath, baseMsg, 0)
        case Miss => Matched
        case Hit(_, o) => if o.Fail? then Missed(o.failure) else if o.Throw? then Crashed(o.error) else Matched
    else if !obj.VObj? then Rejected(Failure(SubjectNotRecord, objMsg))
    else if !pattern.PSingle? then Rejected(Failure(PatternNotRecord, patternMsg))
    else
      match Check(obj, pattern.single, basePath, baseMsg, partial)
      case Pass => Matched
      case Fail(f) => Missed(f)
      case Throw(e) => Crashed(e)
  }

  /** `matchObject(pattern, partial)` on the subject `obj`, with the
      assertion's negation flag and the base path and message a parent match
      handed down (empty at the top level). */
  function Match(obj: Value, pattern: Pattern, partial: bool, negate: bool, pathFlag: string, baseMsg: string): (r: Outcome)
    ensures !WellShaped(obj, pattern, partial) ==> r.Fail? && ShapeReason(r.failure.reason)
    decreases pattern, 6, 0
  {
    var basePath := BasePath(pathFlag);
    Polarity(Probe(obj, pattern, partial, basePath, baseMsg), negate, AtMessage(baseMsg, basePath), Operation(partial))
  }
}

=== FILE: match_properties.dfy ===
/** Properties of `matchObject`: the shape checks that no negation
    inverts, the three strategies (record, array find-one, array
    positional), and negation inversion. */
module MatchProperties {
  import opened Values
  import opened Patterns
  import opened Reporting
  import opened Engine
  import opened CheckProperties

  /** The null, type and length checks fail the same way whatever the
      polarity, with the message built from the base path and message. */
  lemma ShapeChecksNotInverted(obj: Value, pattern: Pattern, partial: bool, negate: bool, pathFlag: string, baseMsg: string)
    ensures var B := BasePath(pathFlag);
      var r := Match(obj, pattern, partial, negate, pathFlag, baseMsg);
      && (pathFlag == "" ==> B == "root")
      && (obj.VNull? ==> r == Fail(Failure(NullSubject, AtMessage(baseMsg, B))))
      && (!obj.VNull? && pattern.PNull? ==> r == Fail(Failure(NullPattern, PatternMessage(baseMsg, B))))
      && (obj.VArr? && partial && !pattern.PNull? && !pattern.PSingle? ==>
            r == Fail(Failure(PatternNotRecord, PatternMessage(baseMsg, B))))
      && (obj.VArr? && !partial && !pattern.PNull? && !pattern.PList? ==>
            r == Fail(Failure(PatternNotList, PatternMessage(baseMsg, B))))
      && (obj.VArr? && !partial && pattern.PList? && |obj.elems| != |pattern.items| ==>
            r == Fail(Failure(LengthMismatch, "")))
      && (!obj.VNull? && !obj.VArr? && !obj.VObj? && !pattern.PNull? ==>
            r == Fail(Failure(SubjectNotRecord, AtMessage(baseMsg, B))))
      && (obj.VObj? && !pattern.PNull? && !pattern.PSingle? ==>
            r == Fail(Failure(PatternNotRecord, PatternMessage(baseMsg, B))))
  {
  }

  /** Once the shape checks pass and nothing is thrown, exactly one of the
      un-negated and the negated call succeeds; the negated call that fails
      says the value was not expected to match. Shape failures and throws
      are the same for both polarities. */
  lemma NegationInverts(obj: Value, pattern: Pattern, partial: bool, pathFlag: string, baseMsg: string)
    ensures var probe := Probe(obj, pattern, partial, BasePath(pathFlag), baseMsg);
      var pos := Match(obj, pattern, partial, false, pathFlag, baseMsg);
      var neg := Match(obj, pattern, partial, true, pathFlag, baseMsg);
      && ((probe.Matched? || probe.Missed?) ==> pos.Pass? != neg.Pass? && (pos.Fail? || neg.Fail?))
      && (probe.Matched? ==> pos == Pass && neg == Fail(Failure(MatchedWhenNegated,
            NegatedMessage(AtMessage(baseMsg, BasePath(pathFlag)), Operation(partial)))))
      && (probe.Missed? ==> neg == Pass && pos == Fail(probe.failure))
      && ((probe.Rejected? || probe.Crashed?) ==> pos == neg && !pos.Pass?)
  {
    var B := BasePath(pathFlag);
    var probe := Probe(obj, pattern, partial, B, baseMsg);
    var objMsg := AtMessage(baseMsg, B);
    assert Match(obj, pattern, partial, false, pathFlag, baseMsg) == Polarity(probe, false, objMsg, Operation(partial));
    assert Match(obj, pattern, partial, true, pathFlag, baseMsg) == Polarity(probe, true, objMsg, Operation(partial));
  }

  /** A record subject with a record pattern is decided by one `check` at
      the base path: un-negated, the call's outcome is the check's; negated,
      it succeeds exactly when the check fails, and a throw passes through. */
  lemma RecordMatch(fs: seq<Field>, p: SinglePattern, partial: bool, pathFlag: string, baseMsg: string)
    ensures var c := Check(VObj(fs), p, BasePath(pathFlag), baseMsg, partial);
      && Match(VObj(fs), PSingle(p), partial, false, pathFlag, baseMsg) == c
      && (Match(VObj(fs), PSingle(p), partial, true, pathFlag, baseMsg).Pass? <==> c.Fail?)
      && (c.Throw? ==> Match(VObj(fs), PSingle(p), partial, true, pathFlag, baseMsg) == c)
  {
  }

  /** Equal-mode success on a record implies include-mode success. */
  lemma MatchEqualImpliesInclude(fs: seq<Field>, p: SinglePattern, pathFlag: string, baseMsg: string)
    ensures Match(VObj(fs), PSingle(p), false, false, pathFlag, baseMsg) == Pass ==>
      Match(VObj(fs), PSingle(p), true, false, pathFlag, baseMsg) == Pass
  {
    RecordMatch(fs, p, false, pathFlag, baseMsg);
    RecordMatch(fs, p, true, pathFlag, baseMsg);
    CheckEqualImpliesInclude(VObj(fs), p, BasePath(pathFlag), baseMsg);
  }

  /** A record matched against its own fields as literals passes. */
  lemma LiteralSelfMatch(fs: seq<Field>, pathFlag: string, baseMsg: string)
    ensures Match(VObj(fs), PSingle(Literalize(fs)), false, false, pathFlag, baseMsg) == Pass
  {
    RecordMatch(fs, Literalize(fs), false, pathFlag, baseMsg);
    LiteralSelfCheck(fs, BasePath(pathFlag), baseMsg);
  }

  /** Which outcome ends a search: find-one stops at the first element whose
      check does not fail, the positional comparison at the first pair that
      does not pass. */
  predicate Stops(o: Outcome, partial: bool) {
    if partial then !o.Fail? else !o.Pass?
  }

  /** The same search over outcomes computed in advance, from index `i`. A
      proof device: `FindOneScan` and `FirstMismatchScan` tie it back to the
      engine's `FindOne` and `FirstMismatch`. */
  function ScanFrom(os: seq<Outcome>, partial: bool, i: nat): (r: Scan)
    decreases |os| - i
  {
    if i >= |os| then Miss
    else if Stops(os[i], partial) then Hit(i, os[i])
    else ScanFrom(os, partial, i + 1)
  }

  /** First-match semantics of a search: it misses exactly when no outcome
      stops it, and otherwise reports the first outcome that does. */
  lemma {:induction false} ScanFromFirst(os: seq<Outcome>, partial: bool, i: nat)
    ensures var r := ScanFrom(os, partial, i);
      && (r.Miss? <==> forall j :: i <= j < |os| ==> !Stops(os[j], partial))
      && (r.Hit? ==>
            && i <= r.ix < |os|
            && r.outcome == os[r.ix]
            && Stops(r.outcome, partial)
            && (forall j :: i <= j < r.ix ==> !Stops(os[j], partial)))
    decreases |os| - i
  {
    if i < |os| {
      ScanFromFirst(os, partial, i + 1);
    }
  }

  /** The partial check outcome of every element, each at its own path. */
  function ElementChecks(elems: seq<Value>, p: SinglePattern, basePath: string, baseMsg: string): (os: seq<Outcome>) {
    seq(|elems|, j requires 0 <= j < |elems| => Check(elems[j], p, ElementPath(basePath, j), baseMsg, true))
  }

  /** The exact check outcome of every element against its own pattern. */
  function PairChecks(elems: seq<Value>, items: seq<SinglePattern>, basePath: string, baseMsg: string): (os: seq<Outcome>)
    requires |elems| == |items|
  {
    seq(|elems|, j requires 0 <= j < |elems| => Check(elems[j], items[j], ElementPath(basePath, j), baseMsg, false))
  }

  /** One step of find-one, in terms of the precomputed outcomes. */
  lemma FindOneStep(elems: seq<Value>, p: SinglePattern, basePath: string, baseMsg: string, i: nat)
    requires i < |elems|
    ensures var o := ElementChecks(elems, p, basePath, baseMsg)[i];
      FindOne(elems, p, basePath, baseMsg, i) == if o.Fail? then FindOne(elems, p, basePath, baseMsg, i + 1) else Hit(i, o)
  {
    assert ElementChecks(elems, p, basePath, baseMsg)[i] == Check(elems[i], p, ElementPath(basePath, i), baseMsg, true);
  }

  /** One step of the positional comparison, in terms of the precomputed
      outcomes. */
  lemma FirstMismatchStep(elems: seq<Value>, items: seq<SinglePattern>, basePath: string, baseMsg: string, i: nat)
    requires |elems| == |items| && i < |elems|
    ensures var o := PairChecks(elems, items, basePath, baseMsg)[i];
      FirstMismatch(elems, items, basePath, baseMsg, i) ==
        if o.Pass? then FirstMismatch(elems, items, basePath, baseMsg, i + 1) else Hit(i, o)
  {
    assert PairChecks(elems, items, basePath, baseMsg)[i] == Check(elems[i], items[i], ElementPath(basePath, i), baseMsg, false);
  }

  lemma {:induction false} FindOneScan(elems: seq<Value>, p: SinglePattern, basePath: string, baseMsg: string, i: nat)
    ensures FindOne(elems, p, basePath, baseMsg, i) == ScanFrom(ElementChecks(elems, p, basePath, baseMsg), true, i)
    decreases |elems| - i
  {
    if i < |elems| {
      FindOneScan(elems, p, basePath, baseMsg, i + 1);
      FindOneStep(elems, p, basePath, baseMsg, i);
    }
  }

  lemma {:induction false} FirstMismatchScan(elems: seq<Value>, items: seq<SinglePattern>, basePath: string, baseMsg: string, i: nat)
    requires |elems| == |items|
    ensures FirstMismatch(elems, items, basePath, baseMsg, i) == ScanFrom(PairChecks(elems, items, basePath, baseMsg), false, i)
    decreases |elems| - i
  {
    if i < |elems| {
      FirstMismatchScan(elems, items, basePath, baseMsg, i + 1);
      FirstMismatchStep(elems, items, basePath, baseMsg, i);
    }
  }

  /** `findIndex` semantics: the search reports the first element whose
      check does not fail, and misses exactly when every check fails. */
  lemma FindOneFirst(elems: seq<Value>, p: SinglePattern, basePath: string, baseMsg: string)
    ensures var os := ElementChecks(elems, p, basePath, baseMsg);
      var r := FindOne(elems, p, basePath, baseMsg, 0);
      && (r.Miss? <==> forall j :: 0 <= j < |elems| ==> os[j].Fail?)
      && (r.Hit? ==>
            && r.ix < |elems|
            && r.outcome == os[r.ix]
            && !r.outcome.Fail?
            && (forall j :: 0 <= j < r.ix ==> os[j].Fail?))
  {
    FindOneScan(elems, p, basePath, baseMsg, 0);
    ScanFromFirst(ElementChecks(elems, p, basePath, baseMsg), true, 0);
  }

  /** An array in include mode with a record pattern: when no element's check
      throws, the un-negated call succeeds exactly when some element passes a
      partial check, and the negated call exactly when none does. */
  lemma IncludeArrayMatch(elems: seq<Value>, p: SinglePattern, pathFlag: string, baseMsg: string)
    requires forall j :: 0 <= j < |elems| ==> !ElementChecks(elems, p, BasePath(pathFlag), baseMsg)[j].Throw?
    ensures var B := BasePath(pathFlag);
      var os := ElementChecks(elems, p, B, baseMsg);
      && (Match(VArr(elems), PSingle(p), true, false, pathFlag, baseMsg) == Pass <==>
            exists j :: 0 <= j < |elems| && os[j] == Pass)
      && (Match(VArr(elems), PSingle(p), true, true, pathFlag, baseMsg) == Pass <==>
            forall j :: 0 <= j < |elems| ==> os[j] != Pass)
      && (Match(VArr(elems), PSingle(p), true, false, pathFlag, baseMsg) != Pass ==>
            Match(VArr(elems), PSingle(p), true, false, pathFlag, baseMsg) ==
              Fail(Failure(NoMatchingElement, MissMessage(AtMessage(baseMsg, B), "include"))))
  {
    FindOneFirst(elems, p, BasePath(pathFlag), baseMsg);
  }

  /** `find` semantics over the pairs: the first pair that does not pass,
      or a miss when all pass. */
  lemma FirstMismatchFirst(elems: seq<Value>, items: seq<SinglePattern>, basePath: string, baseMsg: string)
    requires |elems| == |items|
    ensures var os := PairChecks(elems, items, basePath, baseMsg);
      var r := FirstMismatch(elems, items, basePath, baseMsg, 0);
      && (r.Miss? <==> forall j :: 0 <= j < |elems| ==> os[j] == Pass)
      && (r.Hit? ==>
            && r.ix < |elems|
            && r.outcome == os[r.ix]
            && r.outcome != Pass
            && (forall j :: 0 <= j < r.ix ==> os[j] == Pass))
  {
    FirstMismatchScan(elems, items, basePath, baseMsg, 0);
    ScanFromFirst(PairChecks(elems, items, basePath, baseMsg), false, 0);
  }

  /** An array in equal mode with a pattern list of the same length: the
      un-negated call succeeds exactly when every element passes an exact
      check against its own pattern, and otherwise reports the first
      element that does not; the negated call succeeds exactly when that
      first element fails (rather than throws). */
  lemma EqualArrayMatch(elems: seq<Value>, items: seq<SinglePattern>, pathFlag: string, baseMsg: string)
    requires |elems| == |items|
    ensures var B := BasePath(pathFlag);
      var os := PairChecks(elems, items, B, baseMsg);
      var pos := Match(VArr(elems), PList(items), false, false, pathFlag, baseMsg);
      var neg := Match(VArr(elems), PList(items), false, true, pathFlag, baseMsg);
      && (pos == Pass <==> forall j :: 0 <= j < |elems| ==> os[j] == Pass)
      && (pos != Pass ==>
            exists j ::
              && 0 <= j < |elems|
              && pos == os[j]
              && (neg.Pass? <==> pos.Fail?)
              && (forall i :: 0 <= i < j ==> os[i] == Pass))
  {
    FirstMismatchFirst(elems, items, BasePath(pathFlag), baseMsg);
  }
}

=== FILE: path_properties.dfy ===
/** Path correctness: every assertion failure a match reports names a
    location at or below the match's base path. Nested matches run at the
    key path of their leaf and array elements at `path[i]`, so the path in
    a failure message grows with the depth at which the failure happened,
    and always starts with the caller's text. The one exception is the
    array length check, whose assertion carries no message of its own. */
module PathProperties {
  import opened Seqs
  import opened Values
  import opened Patterns
  import opened Reporting
  import opened Engine

  /** `msg` begins with `head` and then `path`, and the path ends there or
      goes on into a key (`.`) or an element (`[`): the message names `path`
      or a location below it. The empty path is above every location. */
  ghost predicate Under(msg: string, head: string, path: string) {
    && head + path <= msg
    && (path == "" || (|head + path| < |msg| && msg[|head + path|] in {')', '.', '['}))
  }

  /** `path2` is `path` or a location below it. */
  ghost predicate Descends(path2: string, path: string) {
    path == "" || path2 == path || path + "." <= path2 || path + "[" <= path2
  }

  /** A failure outcome whose message names a location at or below `path`,
      either of the value ("(at …") or of the pattern ("(pattern at …"). */
  ghost predicate Located(o: Outcome, baseMsg: string, path: string) {
    o.Fail? && o.failure.reason != LengthMismatch ==>
      || Under(o.failure.msg, Prefix(baseMsg) + "(at ", path)
      || Under(o.failure.msg, Prefix(baseMsg) + "(pattern at ", path)
  }

  /** A message under a location is under every location above it. */
  lemma UnderWeaken(msg: string, head: string, path: string, path2: string)
    requires Descends(path2, path) && Under(msg, head, path2)
    ensures Under(msg, head, path)
  {
    var n := |head + path|;
    assert msg[..|head + path2|] == head + path2;
    if path != "" && path2 != path {
      var sep := if path + "." <= path2 then "." else "[";
      assert path + sep <= path2;
      assert (head + path2)[..n] == head + path;
      assert (head + path2)[n] == (path + sep)[|path|] == sep[0];
    }
  }

  lemma LocatedWeaken(o: Outcome, baseMsg: string, path: string, path2: string)
    requires Descends(path2, path) && Located(o, baseMsg, path2)
    ensures Located(o, baseMsg, path)
  {
    if o.Fail? && o.failure.reason != LengthMismatch {
      var msg := o.failure.msg;
      if Under(msg, Prefix(baseMsg) + "(at ", path2) {
        UnderWeaken(msg, Prefix(baseMsg) + "(at ", path, path2);
      } else {
        UnderWeaken(msg, Prefix(baseMsg) + "(pattern at ", path, path2);
      }
    }
  }

  /** Key and element paths lie below their parent, and a nested match's
      base path at or below the key path it was handed. */
  lemma PathsDescend(path: string, key: string, i: nat)
    ensures Descends(KeyPath(path, key), path)
    ensures Descends(ElementPath(path, i), path)
    ensures Descends(BasePath(path), path)
  {
    if path != "" {
      assert (path + "." + key)[..|path| + 1] == path + ".";
    }
    assert (path + "[" + NatToString(i) + "]")[..|path| + 1] == path + "[";
  }

  /** A message that closes right after `path`. */
  lemma ClosedUnder(head: string, path: string, tail: string)
    ensures Under(head + path + ")" + tail, head, path)
  {
    var m := head + path + ")" + tail;
    assert m[..|head + path|] == head + path;
    assert m[|head + path|] == ')';
  }

  /** The messages a match builds about its own base path are located there. */
  lemma OwnMessagesLocated(baseMsg: string, path: string, op: string)
    ensures Under(AtMessage(baseMsg, path), Prefix(baseMsg) + "(at ", path)
    ensures Under(PatternMessage(baseMsg, path), Prefix(baseMsg) + "(pattern at ", path)
    ensures Under(MissMessage(AtMessage(baseMsg, path), op), Prefix(baseMsg) + "(at ", path)
    ensures Under(NegatedMessage(AtMessage(baseMsg, path), op), Prefix(baseMsg) + "(at ", path)
  {
    var a := Prefix(baseMsg) + "(at ";
    ClosedUnder(a, path, "");
    assert AtMessage(baseMsg, path) == a + path + ")" + "";
    ClosedUnder(Prefix(baseMsg) + "(pattern at ", path, "");
    assert PatternMessage(baseMsg, path) == Prefix(baseMsg) + "(pattern at " + path + ")" + "";
    ClosedUnder(a, path, ": expected to recursive " + op + " the pattern");
    assert MissMessage(AtMessage(baseMsg, path), op) == a + path + ")" + (": expected to recursive " + op + " the pattern");
    ClosedUnder(a, path, ": expected to not recursive " + op + " the pattern");
    assert NegatedMessage(AtMessage(baseMsg, path), op) == a + path + ")" + (": expected to not recursive " + op + " the pattern");
  }

  lemma {:induction false} MatchLocated(obj: Value, q: Pattern, partial: bool, negate: bool, pathFlag: string, baseMsg: string)
    ensures Located(Match(obj, q, partial, negate, pathFlag, baseMsg), baseMsg, BasePath(pathFlag))
    decreases q, 6, 0
  {
    var B := BasePath(pathFlag);
    ProbeLocated(obj, q, partial, B, baseMsg);
    OwnMessagesLocated(baseMsg, B, Operation(partial));
  }

  lemma {:induction false} ProbeLocated(obj: Value, q: Pattern, partial: bool, basePath: string, baseMsg: string)
    ensures var c := Probe(obj, q, partial, basePath, baseMsg);
      (c.Rejected? || c.Missed?) ==> Located(Fail(c.failure), baseMsg, basePath)
    decreases q, 5, 0
  {
    OwnMessagesLocated(baseMsg, basePath, Operation(partial));
    if obj.VNull? || q.PNull? {
    } else if obj.VArr? && partial {
    } else if obj.VArr? {
      if q.PList? && |obj.elems| == |q.items| {
        FirstMismatchLocated(obj.elems, q.items, basePath, baseMsg, 0);
      }
    } else if obj.VObj? && q.PSingle? {
      CheckLocated(obj, q.single, basePath, baseMsg, partial);
    }
  }

  lemma {:induction false} FirstMismatchLocated(elems: seq<Value>, items: seq<SinglePattern>, basePath: string, baseMsg: string, i: nat)
    ensures var r := FirstMismatch(elems, items, basePath, baseMsg, i);
      r.Hit? ==> Located(r.outcome, baseMsg, basePath)
    decreases PList(items), 4, |elems| - i
  {
    if i < |elems| && i < |items| {
      var path := ElementPath(basePath, i);
      CheckLocated(elems[i], items[i], path, baseMsg, false);
      PathsDescend(basePath, "", i);
      LocatedWeaken(Check(elems[i], items[i], path, baseMsg, false), baseMsg, basePath, path);
      FirstMismatchLocated(elems, items, basePath, baseMsg, i + 1);
    }
  }

  /** Every failure `check` reports is located at or below its path. */
  lemma {:induction false} CheckLocated(obj: Value, p: SinglePattern, path: string, baseMsg: string, partial: bool)
    ensures Located(Check(obj, p, path, baseMsg, partial), baseMsg, path)
    decreases p, 3, 0
  {
    if !(obj.VNull? || obj.VUndefined?) {
      CheckKeysLocated(obj, p, path, baseMsg, partial, VisitedKeys(p, obj));
    }
  }

  lemma {:induction false} CheckKeysLocated(obj: Value, p: SinglePattern, path: string, baseMsg: string, partial: bool, keys: seq<string>)
    ensures Located(CheckKeys(obj, p, path, baseMsg, partial, keys), baseMsg, path)
    decreases p, 2, |keys|
  {
    if |keys| > 0 {
      KeyLocated(obj, p, path, baseMsg, partial, keys[0]);
      CheckKeysLocated(obj, p, path, baseMsg, partial, keys[1..]);
    }
  }

  lemma {:induction false} KeyLocated(obj: Value, p: SinglePattern, path: string, baseMsg: string, partial: bool, key: string)
    ensures Located(KeyOutcome(obj, p, path, baseMsg, partial, key), baseMsg, path)
    decreases p, 1, 0
  {
    if !Skipped(p, obj, partial, key) {
      var keyPath := KeyPath(path, key);
      var i := EntryIndex(p, key);
      OwnMessagesLocated(baseMsg, keyPath, "");
      PathsDescend(path, key, 0);
      if i < 0 {
        assert Located(LiteralOutcome(Get(obj, key), VUndefined, AtMessage(baseMsg, keyPath)), baseMsg, keyPath);
        LocatedWeaken(KeyOutcome(obj, p, path, baseMsg, partial, key), baseMsg, path, keyPath);
      } else {
        LeafLocated(Get(obj, key), p.entries[i].leaf, keyPath, baseMsg);
        LocatedWeaken(KeyOutcome(obj, p, path, baseMsg, partial, key), baseMsg, path, keyPath);
      }
    }
  }

  lemma {:induction false} LeafLocated(val: Value, leaf: Leaf, keyPath: string, baseMsg: string)
    ensures Located(LeafOutcome(val, leaf, keyPath, baseMsg), baseMsg, keyPath)
    decreases leaf, 0, 0
  {
    OwnMessagesLocated(baseMsg, keyPath, "");
    match leaf
    case Lit(v) =>
    case Pred(test) =>
    case Rec(partial, negate, q) =>
      MatchLocated(val, q, partial, negate, keyPath, baseMsg);
      PathsDescend(keyPath, "", 0);
      LocatedWeaken(LeafOutcome(val, leaf, keyPath, baseMsg), baseMsg, keyPath, BasePath(keyPath));
  }

  /** At the top level every failure other than the length check names
      "root" or a location below it ("(at root)", "(at root.…", "(at root[…"),
      of the value or of the pattern, after the caller's text. */
  lemma TopLevelFailuresUnderRoot(obj: Value, q: Pattern, partial: bool, negate: bool, baseMsg: string)
    ensures var r := Match(obj, q, partial, negate, "", baseMsg);
      r.Fail? && r.failure.reason != LengthMismatch ==>
        || Under(r.failure.msg, Prefix(baseMsg) + "(at ", "root")
        || Under(r.failure.msg, Prefix(baseMsg) + "(pattern at ", "root")
  {
    MatchLocated(obj, q, partial, negate, "", baseMsg);
  }
}

=== FILE: patterns.dfy ===
/** Patterns: a record of expectations keyed like the value under test, or
    a list of such records for a positional array match. Each expectation
    (leaf) is resolved once into a literal, an opaque predicate, or a
    nested recursive match. */
module Patterns {
  import opened Seqs
  import opened Values

  /** What a predicate leaf does with the value it is handed: accept it,
      fail an assertion on it, or throw something that is not an assertion
      failure. */
  datatype Verdict = Accept | Reject | Raise(thrown: Value)

  /** A pattern leaf. `Lit` is compared by deep equality; `Pred` is any
      function of the value (`to => to.be.gt(1)`); `Rec` is the predicate
      `to => to[.not].recursive.equal(p)` or `…include(p)`, which re-enters
      the matcher with the leaf's own mode and polarity. */
  datatype Leaf =
    | Lit(expected: Value)
    | Pred(test: Value -> Verdict)
    | Rec(partial: bool, negate: bool, nested: Pattern)

  datatype Entry = Entry(key: string, leaf: Leaf)

  /** A record pattern, entries in insertion order. */
  datatype SinglePattern = SinglePattern(entries: seq<Entry>)

  /** The pattern argument of a match: a record pattern, an array of record
      patterns, null, or any other value (undefined, a number, a date, …). */
  datatype Pattern =
    | PSingle(single: SinglePattern)
    | PList(items: seq<SinglePattern>)
    | PNull
    | POther

  function EntryKeys(p: SinglePattern): (ks: seq<string>)
    ensures |ks| == |p.entries|
    ensures forall i :: 0 <= i < |ks| ==> ks[i] == p.entries[i].key
  {
    seq(|p.entries|, i requires 0 <= i < |p.entries| => p.entries[i].key)
  }

  /** `key in pattern`. */
  predicate HasKey(p: SinglePattern, key: string) {
    key in EntryKeys(p)
  }

  /** The entry `pattern[key]` reads, or -1 when the key is absent. */
  function EntryIndex(p: SinglePattern, key: string): (i: int)
    ensures -1 <= i < |p.entries|
    ensures i >= 0 <==> HasKey(p, key)
    ensures i >= 0 ==> p.entries[i].key == key
  {
    IndexOf(EntryKeys(p), key)
  }

  lemma EntryIndexCons(e: Entry, es: seq<Entry>, key: string)
    ensures EntryKeys(SinglePattern([e] + es)) == [e.key] + EntryKeys(SinglePattern(es))
    ensures EntryIndex(SinglePattern([e] + es), key) ==
      if e.key == key then 0
      else if EntryIndex(SinglePattern(es), key) < 0 then -1
      else EntryIndex(SinglePattern(es), key) + 1
  {
    var ks := EntryKeys(SinglePattern([e] + es));
    assert ks == [e.key] + EntryKeys(SinglePattern(es));
    assert ks[1..] == EntryKeys(SinglePattern(es));
  }

  /** The pattern with only the entries whose key is in `keep`, in their
      original order (`delete pattern[key]` for every other key). */
  function Restrict(p: SinglePattern, keep: set<string>): (r: SinglePattern)
    ensures |r.entries| <= |p.entries|
    ensures forall i :: 0 <= i < |r.entries| ==> r.entries[i].key in keep
    decreases |p.entries|
  {
    if |p.entries| == 0 then p
    else
      var rest := Restrict(SinglePattern(p.entries[1..]), keep);
      if p.entries[0].key in keep then SinglePattern([p.entries[0]] + rest.entries)
      else rest
  }

  /** Restricting keeps exactly the pattern's keys in `keep`, and a kept key
      still reads the same leaf. */
  lemma RestrictKeys(p: SinglePattern, keep: set<string>)
    ensures forall k :: HasKey(Restrict(p, keep), k) <==> HasKey(p, k) && k in keep
    ensures forall k :: HasKey(Restrict(p, keep), k) ==>
      Restrict(p, keep).entries[EntryIndex(Restrict(p, keep), k)].leaf == p.entries[EntryIndex(p, k)].leaf
  {
    forall k ensures (HasKey(Restrict(p, keep), k) <==> HasKey(p, k) && k in keep)
      && (HasKey(Restrict(p, keep), k) ==>
            Restrict(p, keep).entries[EntryIndex(Restrict(p, keep), k)].leaf == p.entries[EntryIndex(p, k)].leaf)
    {
      RestrictKey(p, keep, k);
    }
  }

  lemma {:induction false} RestrictKey(p: SinglePattern, keep: set<string>, k: string)
    ensures HasKey(Restrict(p, keep), k) <==> HasKey(p, k) && k in keep
    ensures HasKey(Restrict(p, keep), k) ==>
      Restrict(p, keep).entries[EntryIndex(Restrict(p, keep), k)].leaf == p.entries[EntryIndex(p, k)].leaf
    decreases |p.entries|
  {
    if |p.entries| > 0 {
      var e := p.entries[0];
      var tail := SinglePattern(p.entries[1..]);
      var rest := Restrict(tail, keep);
      RestrictKey(tail, keep, k);
      assert p.entries == [e] + tail.entries;
      EntryIndexCons(e, tail.entries, k);
      if e.key in keep {
        assert Restrict(p, keep).entries == [e] + rest.entries;
        EntryIndexCons(e, rest.entries, k);
      } else {
        assert Restrict(p, keep) == rest;
      }
    }
  }

  /** The all-literal pattern that mirrors a record field by field. */
  function Literalize(fs: seq<Field>): (p: SinglePattern)
    ensures EntryKeys(p) == FieldKeys(fs)
    ensures forall i :: 0 <= i < |fs| ==> p.entries[i].leaf == Lit(fs[i].val)
  {
    SinglePattern(seq(|fs|, i requires 0 <= i < |fs| => Entry(fs[i].key, Lit(fs[i].val))))
  }
}

=== FILE: reporting.dfy ===
/** Failures, outcomes and the strings the matcher builds for them: the
    dotted key path, the "(at …)" message prefix, and the negation
    handling that turns a comparison result into the assertion's outcome. */
module Reporting {
  import opened Values

  /** Why an assertion failed. The first six are the shape checks of a match
      call (null subject or pattern, wrong type, wrong array length); the
      next two come from leaves; the last two from the match's polarity. */
  datatype Reason =
    | NullSubject
    | NullPattern
    | SubjectNotRecord
    | PatternNotRecord
    | PatternNotList
    | LengthMismatch
    | LeafMismatch
    | PredicateRejected
    | NoMatchingElement
    | MatchedWhenNegated

  /** An assertion failure. `msg` is the part of the message the matcher
      builds itself: the "(at path)" prefix for failures rendered by the
      assertion library, the whole text for failures it raises directly. */
  datatype Failure = Failure(reason: Reason, msg: string)

  /** Something thrown that is not an assertion failure: the type error of
      reading the keys of null or undefined, or any other thrown value. */
  datatype Error = NullishKeys | Raised(thrown: Value)

  /** The result of one assertion: success, an assertion failure, or a
      non-assertion throw that no caller catches. */
  datatype Outcome = Pass | Fail(failure: Failure) | Throw(error: Error)

  /** The result of a match before its polarity is applied: a shape check
      failed, something was thrown, or the value did or did not match
      (with the failure an un-negated call reports). */
  datatype Comparison = Rejected(failure: Failure) | Crashed(error: Error) | Matched | Missed(failure: Failure)

  /** The caller's text followed by a space, or nothing when there is none. */
  function Prefix(baseMsg: string): (r: string)
    ensures baseMsg == "" ==> r == ""
    ensures baseMsg != "" ==> baseMsg <= r && |r| == |baseMsg| + 1 && r[|baseMsg|] == ' '
  {
    if baseMsg == "" then "" else baseMsg + " "
  }

  /** The message the matcher attaches to an assertion about the value at `path`. */
  function AtMessage(baseMsg: string, path: string): (m: string) {
    Prefix(baseMsg) + "(at " + path + ")"
  }

  /** The message the matcher attaches to an assertion about the pattern at `path`. */
  function PatternMessage(baseMsg: string, path: string): (m: string) {
    Prefix(baseMsg) + "(pattern at " + path + ")"
  }

  /** The path of `key` below `path`, dotted unless `path` is empty. */
  function KeyPath(path: string, key: string): (r: string)
    ensures path <= r
    ensures |r| == if path == "" then |key| else |path| + 1 + |key|
  {
    if path == "" then key else path + "." + key
  }

  /** A key path is the key alone at an empty path, and otherwise the parent
      path, a dot, and the key. */
  lemma KeyPathParts(path: string, key: string)
    ensures path == "" ==> KeyPath(path, key) == key
    ensures path != "" ==> var r := KeyPath(path, key);
      r[..|path|] == path && r[|path|] == '.' && r[|path| + 1..] == key
  {
  }

  /** The path of the `i`-th element of the array at `path`. */
  function ElementPath(path: string, i: nat): (r: string)
    ensures path <= r
  {
    path + "[" + NatToString(i) + "]"
  }

  /** A nested match inherits its parent's key path; an empty one (and the
      top-level call, which has none) falls back to "root". */
  function BasePath(pathFlag: string): (r: string)
    ensures r != ""
    ensures pathFlag <= r
    ensures pathFlag == "" ==> r == "root"
    ensures pathFlag != "" ==> r == pathFlag
  {
    if pathFlag == "" then "root" else pathFlag
  }

  function Operation(partial: bool): (op: string) {
    if partial then "include" else "equal"
  }

  function MissMessage(objMsg: string, op: string): (m: string) {
    objMsg + ": expected to recursive " + op + " the pattern"
  }

  function NegatedMessage(objMsg: string, op: string): (m: string) {
    objMsg + ": expected to not recursive " + op + " the pattern"
  }

  /** Applies negation: shape failures and throws pass through whatever the
      polarity; a match fails only when negated, a miss only when not. */
  function Polarity(probe: Comparison, negate: bool, objMsg: string, op: string): (r: Outcome)
    ensures probe.Rejected? ==> r == Fail(probe.failure)
    ensures probe.Crashed? ==> r == Throw(probe.error)
    ensures (probe.Matched? || probe.Missed?) ==> (r.Pass? <==> probe.Matched? != negate)
    ensures r.Fail? && probe.Matched? ==>
      r.failure == Failure(MatchedWhenNegated, NegatedMessage(objMsg, op))
    ensures r.Fail? && probe.Missed? ==> r.failure == probe.failure
  {
    match probe
    case Rejected(f) => Fail(f)
    case Crashed(e) => Throw(e)
    case Matched =>
      if negate then Fail(Failure(MatchedWhenNegated, NegatedMessage(objMsg, op))) else Pass
    case Missed(f) => if negate then Pass else Fail(f)
  }
}

=== FILE: scenarios.dfy ===
/** Scenarios from the repository's test suite (test/index.spec.ts), on
    trimmed-down values, derived from the general lemmas. */
module Scenarios {
  import opened Seqs
  import opened Values
  import opened Patterns
  import opened Reporting
  import opened Engine
  import opened CheckProperties
  import opened MatchProperties

  function IsNumber(v: Value): (verdict: Verdict) {
    if v.VNum? then Accept else Reject
  }

  /** `{key: 'b', value: 'B'}`, the `obj2` of the record tests. */
  function Obj2(): (v: Value) {
    VObj([Field("key", VStr("b")), Field("value", VStr("B"))])
  }

  /** `{key: 'b', value: to => to.be.a('number')}`. */
  function Obj2Pattern(): (p: SinglePattern) {
    SinglePattern([Entry("key", Lit(VStr("b"))), Entry("value", Pred(IsNumber))])
  }

  /** The record under test, trimmed to a number, a method and `obj2`. */
  function Subject(): (v: Value) {
    VObj([Field("num1", VNum(1)), Field("obj2", Obj2()), Field("method1", VFn(0))])
  }

  /** `{obj2: to => to.recursive.equal({key: 'b', value: to => to.be.a('number')})}`. */
  function NestedPattern(): (p: SinglePattern) {
    SinglePattern([Entry("obj2", Rec(false, false, PSingle(Obj2Pattern())))])
  }

  lemma Obj2Visited()
    ensures VisitedKeys(Obj2Pattern(), Obj2()) == ["key", "value"]
  {
    assert EntryKeys(Obj2Pattern()) == ["key", "value"];
    assert FieldKeys(Obj2().fields) == ["key", "value"];
    VisitedPatternOrder(Obj2(), Obj2Pattern());
  }

  lemma Obj2KeyPasses(baseMsg: string)
    ensures KeyOutcome(Obj2(), Obj2Pattern(), "root.obj2", baseMsg, false, "key") == Pass
  {
    assert EntryKeys(Obj2Pattern()) == ["key", "value"];
    assert Get(Obj2(), "key") == VStr("b");
    assert EntryIndex(Obj2Pattern(), "key") == 0;
  }

  lemma Obj2ValueFails(baseMsg: string)
    ensures KeyOutcome(Obj2(), Obj2Pattern(), "root.obj2", baseMsg, false, "value") ==
      Fail(Failure(PredicateRejected, Prefix(baseMsg) + "(at root.obj2.value)"))
  {
    var p := Obj2Pattern();
    assert EntryKeys(p) == ["key", "value"];
    assert EntryIndex(p, "value") == 1;
    assert Get(Obj2(), "value") == VStr("B");
    KeyVerdict(Obj2(), p, "root.obj2", baseMsg, false, "value");
    Obj2ValuePath(baseMsg);
  }

  lemma Obj2ValuePath(baseMsg: string)
    ensures AtMessage(baseMsg, KeyPath("root.obj2", "value")) == Prefix(baseMsg) + "(at root.obj2.value)"
  {
    assert KeyPath("root.obj2", "value") == "root.obj2.value";
    var a := Prefix(baseMsg);
    assert AtMessage(baseMsg, "root.obj2.value") == a + ("(at " + "root.obj2.value" + ")");
    assert "(at " + "root.obj2.value" + ")" == "(at root.obj2.value)";
  }

  lemma InnerFailure(baseMsg: string)
    ensures Check(Obj2(), Obj2Pattern(), "root.obj2", baseMsg, false) ==
      Fail(Failure(PredicateRejected, Prefix(baseMsg) + "(at root.obj2.value)"))
  {
    var obj := Obj2();
    var p := Obj2Pattern();
    Obj2Visited();
    Obj2KeyPasses(baseMsg);
    Obj2ValueFails(baseMsg);
    var vo := KeyOutcome(obj, p, "root.obj2", baseMsg, false, "value");
    assert CheckKeys(obj, p, "root.obj2", baseMsg, false, ["value"]) == vo by {
      assert ["value"][1..] == [];
    }
    assert ["key", "value"][1..] == ["value"];
    assert CheckKeys(obj, p, "root.obj2", baseMsg, false, ["key", "value"]) == vo;
  }

  /** The outer level: the only pattern key, `obj2`, is checked by a nested
      exact match at "root.obj2". */
  lemma Obj2Path()
    ensures KeyPath("root", "obj2") == "root.obj2"
    ensures BasePath("root.obj2") == "root.obj2"
  {
    assert "root" + "." + "obj2" == "root.obj2";
  }

  lemma OuterKeyDelegates(baseMsg: string)
    ensures KeyOutcome(Subject(), NestedPattern(), "root", baseMsg, true, "obj2") ==
      Match(Obj2(), PSingle(Obj2Pattern()), false, false, "root.obj2", baseMsg)
  {
    var p := NestedPattern();
    assert EntryKeys(p) == ["obj2"];
    assert !Skipped(p, Subject(), true, "obj2");
    assert Get(Subject(), "obj2") == Obj2();
    assert EntryIndex(p, "obj2") == 0;
    Obj2Path();
  }

  lemma OuterFailure(baseMsg: string)
    ensures Check(Subject(), NestedPattern(), "root", baseMsg, true) ==
      Fail(Failure(PredicateRejected, Prefix(baseMsg) + "(at root.obj2.value)"))
  {
    OuterKeyDelegates(baseMsg);
    Obj2Path();
    RecordMatch(Obj2().fields, Obj2Pattern(), false, "root.obj2", baseMsg);
    InnerFailure(baseMsg);
    FirstPatternKeyDecides(Subject(), NestedPattern(), "root", baseMsg, true);
  }

  /** "should include path in the error message" and "should include custom
      text in the error message": a predicate failing two levels down reports
      "(at root.obj2.value)", after the caller's text when there is one. */
  lemma NestedFailureMessage()
    ensures Match(Subject(), PSingle(NestedPattern()), true, false, "", "") ==
      Fail(Failure(PredicateRejected, "(at root.obj2.value)"))
    ensures Match(Subject(), PSingle(NestedPattern()), true, false, "", "my text") ==
      Fail(Failure(PredicateRejected, "my text (at root.obj2.value)"))
  {
    TopLevelNested("");
    TopLevelNested("my text");
    MessageLiterals();
  }

  lemma MessageLiterals()
    ensures Prefix("") + "(at root.obj2.value)" == "(at root.obj2.value)"
    ensures Prefix("my text") + "(at root.obj2.value)" == "my text (at root.obj2.value)"
  {
    assert Prefix("") == "";
    assert Prefix("my text") == "my text ";
    var m := "my text " + "(at root.obj2.value)";
    assert |m| == 28;
    forall i | 0 <= i < 28 ensures m[i] == "my text (at root.obj2.value)"[i] {
    }
  }

  lemma TopLevelNested(baseMsg: string)
    ensures Match(Subject(), PSingle(NestedPattern()), true, false, "", baseMsg) ==
      Fail(Failure(PredicateRejected, Prefix(baseMsg) + "(at root.obj2.value)"))
  {
    assert BasePath("") == "root";
    OuterFailure(baseMsg);
    RecordMatch(Subject().fields, NestedPattern(), true, "", baseMsg);
  }

  /** `{a: 1, fn() {}}` against `{a: 1}` passes in both modes: the method
      is skipped even in equal mode. */
  lemma MethodSkipped(partial: bool)
    ensures Match(VObj([Field("a", VNum(1)), Field("fn", VFn(0))]),
      PSingle(SinglePattern([Entry("a", Lit(VNum(1)))])), partial, false, "", "") == Pass
  {
    var obj := VObj([Field("a", VNum(1)), Field("fn", VFn(0))]);
    var p := SinglePattern([Entry("a", Lit(VNum(1)))]);
    assert EntryKeys(p) == ["a"];
    assert FieldKeys(obj.fields) == ["a", "fn"];
    assert Get(obj, "a") == VNum(1);
    assert Get(obj, "fn") == VFn(0);
    assert EntryIndex(p, "a") == 0;
    VisitedKeysSpec(p, obj);
    OwnKeysSpec(obj);
    CheckFirstFailure(obj, p, "root", "", partial);
    RecordMatch(obj.fields, p, partial, "", "");
  }
}

=== FILE: seqs.dfy ===
/** Sequence helpers: duplicate-free sequences, the first-occurrence
    deduplication that a JavaScript `Set` performs on insertion, and
    first-index search. */
module Seqs {

  predicate Distinct<T(==)>(s: seq<T>) {
    forall i, j :: 0 <= i < j < |s| ==> s[i] != s[j]
  }

  /** The elements of `s` in order of first occurrence, which is the
      iteration order of `new Set(s)`. */
  function Unique<T(==)>(s: seq<T>): (r: seq<T>)
    ensures |r| <= |s|
  {
    if |s| == 0 then []
    else
      var init := Unique(s[..|s| - 1]);
      var x := s[|s| - 1];
      if x in init then init else init + [x]
  }

  /** `Unique(s)` holds every element of `s`, nothing else, and each once. */
  lemma {:induction false} UniqueSpec<T>(s: seq<T>)
    ensures forall i :: 0 <= i < |Unique(s)| ==> Unique(s)[i] in s
    ensures forall i :: 0 <= i < |s| ==> s[i] in Unique(s)
    ensures Distinct(Unique(s))
  {
    if |s| > 0 {
      var init := s[..|s| - 1];
      UniqueSpec(init);
      var u := Unique(init);
      var x := s[|s| - 1];
      assert s == init + [x];
      if x !in u {
        assert Unique(s) == u + [x];
      }
    }
  }

  /** Index of the first occurrence of `x` in `s`, or -1 when absent. */
  function IndexOf<T(==)>(s: seq<T>, x: T): (i: int)
    ensures -1 <= i < |s|
    ensures i >= 0 ==> s[i] == x && forall j :: 0 <= j < i ==> s[j] != x
    ensures i == -1 <==> x !in s
  {
    if |s| == 0 then -1
    else if s[0] == x then 0
    else
      var j := IndexOf(s[1..], x);
      if j < 0 then -1 else j + 1
  }

  lemma {:induction false} UniqueOfDistinct<T>(s: seq<T>)
    requires Distinct(s)
    ensures Unique(s) == s
  {
    if |s| > 0 {
      var init := s[..|s| - 1];
      UniqueOfDistinct(init);
      assert s[|s| - 1] !in init;
      assert init + [s[|s| - 1]] == s;
    }
  }

  /** Deduplication keeps the first element first. */
  lemma UniqueHead<T>(s: seq<T>)
    requires |s| > 0
    ensures |Unique(s)| > 0 && Unique(s)[0] == s[0]
  {
    var head := [s[0]];
    UniqueOfDistinct(head);
    UniqueAppendPrefix(head, s[1..]);
    assert head + s[1..] == s;
  }

  /** Deduplicating a concatenation keeps the deduplicated first part as a
      prefix: whatever comes later only adds elements after it. */
  lemma {:induction false} UniqueAppendPrefix<T>(a: seq<T>, b: seq<T>)
    ensures Unique(a) <= Unique(a + b)
  {
    if |b| == 0 {
      assert a + b == a;
    } else {
      var b' := b[..|b| - 1];
      UniqueAppendPrefix(a, b');
      assert (a + b)[..|a + b| - 1] == a + b';
    }
  }

  /** `Unique(a + b)`: every element of either part, those of `a` first, then
      only elements of `b` that are not in `a`. */
  lemma UniqueConcat<T>(a: seq<T>, b: seq<T>)
    ensures forall x :: x in Unique(a + b) <==> x in a || x in b
    ensures Unique(a) <= Unique(a + b)
    ensures forall i :: |Unique(a)| <= i < |Unique(a + b)| ==>
      Unique(a + b)[i] !in a && Unique(a + b)[i] in b
  {
    var all := a + b;
    var u := Unique(all);
    var ua := Unique(a);
    UniqueSpec(a);
    UniqueSpec(all);
    UniqueAppendPrefix(a, b);
    forall x ensures x in u <==> x in a || x in b {
      if x in a || x in b {
        assert x in all;
        var i :| 0 <= i < |all| && all[i] == x;
        assert all[i] in u;
      }
      if x in u {
        var i :| 0 <= i < |u| && u[i] == x;
        assert u[i] in all;
      }
    }
    forall i | 0 <= i < |u| ensures u[i] in a ==> i < |ua| {
      if u[i] in a {
        var j :| 0 <= j < |a| && a[j] == u[i];
        assert a[j] in ua;
        DistinctPrefixIndex(u, ua, i);
      }
    }
    forall i | |ua| <= i < |u| ensures u[i] in b {
      assert u[i] in all;
    }
  }

  /** In a duplicate-free sequence, an element that occurs in a prefix
      occurs only there. */
  lemma DistinctPrefixIndex<T>(u: seq<T>, ua: seq<T>, i: nat)
    requires Distinct(u) && ua <= u && i < |u| && u[i] in ua
    ensures i < |ua|
  {
    var m :| 0 <= m < |ua| && ua[m] == u[i];
    assert u[m] == u[i];
  }

  /** Appending never moves the first occurrence of an element already present. */
  lemma {:induction false} IndexOfAppend<T>(a: seq<T>, b: seq<T>, y: T)
    requires y in a
    ensures IndexOf(a + b, y) == IndexOf(a, y)
  {
    if a[0] != y {
      assert (a + b)[1..] == a[1..] + b;
      IndexOfAppend(a[1..], b, y);
    }
  }

  /** An element appended after a sequence that lacks it is first found at the end. */
  lemma {:induction false} IndexOfLast<T>(a: seq<T>, x: T)
    requires x !in a
    ensures IndexOf(a + [x], x) == |a|
  {
    if |a| > 0 {
      assert (a + [x])[1..] == a[1..] + [x];
      IndexOfLast(a[1..], x);
    }
  }

  /** `Unique(s)` lists the elements of `s` in the order of their first
      occurrence, the insertion order of a `Set`. */
  lemma {:induction false} UniqueOrder<T>(s: seq<T>)
    ensures forall i, j :: 0 <= i < j < |Unique(s)| ==> IndexOf(s, Unique(s)[i]) < IndexOf(s, Unique(s)[j])
  {
    if |s| > 0 {
      var init := s[..|s| - 1];
      var x := s[|s| - 1];
      var u := Unique(init);
      UniqueOrder(init);
      UniqueSpec(init);
      assert s == init + [x];
      forall k | 0 <= k < |u| ensures IndexOf(s, u[k]) == IndexOf(init, u[k]) {
        IndexOfAppend(init, [x], u[k]);
      }
      if x !in u {
        assert Unique(s) == u + [x];
        assert x !in init;
        IndexOfLast(init, x);
        forall i, j | 0 <= i < j < |Unique(s)| ensures IndexOf(s, Unique(s)[i]) < IndexOf(s, Unique(s)[j]) {
          if j == |u| {
            assert Unique(s)[i] == u[i];
          } else {
            assert Unique(s)[i] == u[i] && Unique(s)[j] == u[j];
          }
        }
      }
    }
  }
}

=== FILE: values.dfy ===
/** The values a recursive match runs on: JavaScript scalars, callables,
    arrays and plain records, with the handful of JavaScript operations the
    matcher relies on (own keys, property read, truthiness) and the
    structural deep equality it delegates literal leaves to. */
module Values {
  import opened Seqs

  /** A JavaScript value. Numbers are integers; dates, symbols and bigints
      collapse into `VOpaque`, whose `id` stands for what deep equality
      compares: a date's time value, a symbol's identity. A bigint is `VBig`,
      compared by value. A record keeps its
      fields in insertion order, which is the order `Object.keys` reports. */
  datatype Value =
    | VUndefined
    | VNull
    | VBool(b: bool)
    | VNum(n: int)
    | VStr(s: string)
    | VBig(big: int)
    | VOpaque(id: nat)
    | VFn(id: nat)
    | VArr(elems: seq<Value>)
    | VObj(fields: seq<Field>)

  datatype Field = Field(key: string, val: Value)

  function FieldKeys(fs: seq<Field>): (ks: seq<string>)
    ensures |ks| == |fs|
    ensures forall i :: 0 <= i < |fs| ==> ks[i] == fs[i].key
  {
    seq(|fs|, i requires 0 <= i < |fs| => fs[i].key)
  }

  function DigitChar(d: nat): (c: char)
    requires d < 10
    ensures '0' <= c <= '9'
  {
    (48 + d) as char
  }

  lemma DigitCharInjective(a: nat, b: nat)
    requires a < 10 && b < 10 && DigitChar(a) == DigitChar(b)
    ensures a == b
  {
    assert DigitChar(a) as int == 48 + a;
    assert DigitChar(b) as int == 48 + b;
  }

  /** Decimal rendering of an array index, as a template literal prints it. */
  function NatToString(n: nat): (s: string)
    ensures |s| >= 1
  {
    if n < 10 then [DigitChar(n)] else NatToString(n / 10) + [DigitChar(n % 10)]
  }

  /** Distinct indices render as distinct keys. */
  lemma {:induction false} NatToStringInjective(a: nat, b: nat)
    requires NatToString(a) == NatToString(b)
    ensures a == b
  {
    if a < 10 && b < 10 {
      DigitCharInjective(a, b);
    } else if a >= 10 && b >= 10 {
      var sa := NatToString(a);
      var sb := NatToString(b);
      assert sa[..|sa| - 1] == NatToString(a / 10);
      assert sb[..|sb| - 1] == NatToString(b / 10);
      NatToStringInjective(a / 10, b / 10);
      DigitCharInjective(a % 10, b % 10);
    }
  }

  /** "0", "1", …, the own keys of an array or string of length `n`. */
  function IndexKeys(n: nat): (ks: seq<string>)
    ensures |ks| == n
    ensures forall i :: 0 <= i < n ==> ks[i] == NatToString(i)
  {
    if n == 0 then [] else IndexKeys(n - 1) + [NatToString(n - 1)]
  }

  /** Key "i" is found at position `i` of the index keys. */
  lemma IndexKeysLookup(n: nat, i: nat)
    requires i < n
    ensures IndexOf(IndexKeys(n), NatToString(i)) == i
  {
    var ks := IndexKeys(n);
    assert ks[i] == NatToString(i);
    var j := IndexOf(ks, NatToString(i));
    NatToStringInjective(j, i);
  }

  /** `Object.keys(v)` for a value that is neither null nor undefined. */
  function OwnKeys(v: Value): (ks: seq<string>)
    ensures v.VArr? ==> |ks| == |v.elems|
    ensures v.VStr? ==> |ks| == |v.s|
    ensures !(v.VObj? || v.VArr? || v.VStr?) ==> ks == []
  {
    match v
    case VObj(fs) => Unique(FieldKeys(fs))
    case VArr(xs) => IndexKeys(|xs|)
    case VStr(s) => IndexKeys(|s|)
    case _ => []
  }

  /** A record's own keys are its field keys, each once. */
  lemma OwnKeysSpec(v: Value)
    requires v.VObj?
    ensures Distinct(OwnKeys(v))
    ensures forall k :: k in OwnKeys(v) <==> k in FieldKeys(v.fields)
  {
    var fk := FieldKeys(v.fields);
    UniqueSpec(fk);
    forall k ensures k in OwnKeys(v) <==> k in fk {
      if k in fk {
        var i :| 0 <= i < |fk| && fk[i] == k;
        assert fk[i] in Unique(fk);
      }
      if k in OwnKeys(v) {
        var i :| 0 <= i < |Unique(fk)| && Unique(fk)[i] == k;
        assert Unique(fk)[i] in fk;
      }
    }
  }

  /** An array's or a string's `length`: an own property that `Object.keys`
      does not list. */
  predicate HasLength(v: Value, k: string) {
    (v.VArr? || v.VStr?) && k == "length"
  }

  /** A record's own keys come in field order, first occurrence first, and
      are exactly its field keys when those do not repeat. */
  lemma OwnKeysOrder(v: Value)
    requires v.VObj?
    ensures forall i, j :: 0 <= i < j < |OwnKeys(v)| ==>
      IndexOf(FieldKeys(v.fields), OwnKeys(v)[i]) < IndexOf(FieldKeys(v.fields), OwnKeys(v)[j])
    ensures Distinct(FieldKeys(v.fields)) ==> OwnKeys(v) == FieldKeys(v.fields)
  {
    var fk := FieldKeys(v.fields);
    assert OwnKeys(v) == Unique(fk);
    UniqueOrder(fk);
    if Distinct(fk) {
      UniqueOfDistinct(fk);
    }
  }

  /** The property read `v[k]`: an own key, the `length` of an array or a
      string, and otherwise undefined. */
  function Get(v: Value, k: string): (r: Value)
  {
    match v
    case VObj(fs) =>
      var i := IndexOf(FieldKeys(fs), k);
      if i < 0 then VUndefined else fs[i].val
    case VArr(xs) =>
      if k == "length" then VNum(|xs|)
      else
        var i := IndexOf(IndexKeys(|xs|), k);
        if i < 0 then VUndefined else xs[i]
    case VStr(s) =>
      if k == "length" then VNum(|s|)
      else
        var i := IndexOf(IndexKeys(|s|), k);
        if i < 0 then VUndefined else VStr([s[i]])
    case _ => VUndefined
  }

  /** A key that is neither an own key nor a `length` reads as undefined; a
      record's own key reads the value of a field with that key; key "i" of
      an array reads element `i`, of a string the one-character string at
      `i`; `length` reads the element or character count. */
  lemma GetSpec(v: Value, k: string)
    ensures k !in OwnKeys(v) && !HasLength(v, k) ==> Get(v, k) == VUndefined
    ensures v.VObj? && k in OwnKeys(v) ==>
      exists i :: 0 <= i < |v.fields| && v.fields[i].key == k && Get(v, k) == v.fields[i].val
    ensures v.VArr? ==> Get(v, "length") == VNum(|v.elems|)
    ensures v.VStr? ==> Get(v, "length") == VNum(|v.s|)
  {
    if v.VObj? {
      OwnKeysSpec(v);
    }
  }

  /** Reading index key "i" of an array or a string. */
  lemma GetIndex(v: Value, i: nat)
    ensures v.VArr? && i < |v.elems| ==> Get(v, NatToString(i)) == v.elems[i]
    ensures v.VStr? && i < |v.s| ==> Get(v, NatToString(i)) == VStr([v.s[i]])
  {
    var key := NatToString(i);
    if v.VArr? && i < |v.elems| {
      IndexKeysLookup(|v.elems|, i);
      NotLength(i);
    }
    if v.VStr? && i < |v.s| {
      IndexKeysLookup(|v.s|, i);
      NotLength(i);
    }
  }

  /** An index key starts with a digit, so it is never `length`. */
  lemma {:induction false} NatToStringHead(n: nat)
    ensures '0' <= NatToString(n)[0] <= '9'
  {
    if n >= 10 {
      NatToStringHead(n / 10);
      assert NatToString(n)[0] == NatToString(n / 10)[0];
    }
  }

  lemma NotLength(i: nat)
    ensures NatToString(i) != "length"
  {
    NatToStringHead(i);
    assert "length"[0] == 'l';
  }

  /** JavaScript truthiness. */
  predicate Truthy(v: Value) {
    match v
    case VUndefined => false
    case VNull => false
    case VBool(b) => b
    case VNum(n) => n != 0
    case VStr(s) => s != ""
    case VBig(n) => n != 0
    case _ => true
  }

  /** The falsy values: undefined, null, false, 0, 0n and the empty string. */
  lemma FalsyValues(v: Value)
    ensures !Truthy(v) <==>
      v == VUndefined || v == VNull || v == VBool(false) || v == VNum(0) || v == VBig(0) || v == VStr("")
  {
  }

  function KeySet(fs: seq<Field>): (ks: set<string>) {
    set i | 0 <= i < |fs| :: fs[i].key
  }

  /** The deep equality literal pattern leaves are compared with: arrays
      element-wise, records on the same key set with every key's value
      deep-equal regardless of field order, and everything else (scalars,
      callables, opaque values) by identity. */
  predicate DeepEq(a: Value, b: Value)
    decreases a
  {
    match a
    case VArr(xs) =>
      b.VArr? && |xs| == |b.elems| &&
      forall i :: 0 <= i < |xs| ==> DeepEq(xs[i], b.elems[i])
    case VObj(fs) =>
      b.VObj? && KeySet(fs) == KeySet(b.fields) &&
      forall i :: 0 <= i < |fs| && IndexOf(FieldKeys(fs), fs[i].key) == i ==>
        DeepEq(fs[i].val, Get(b, fs[i].key))
    case _ => a == b
  }

  lemma GetFirstField(fs: seq<Field>, i: nat)
    requires i < |fs| && IndexOf(FieldKeys(fs), fs[i].key) == i
    ensures Get(VObj(fs), fs[i].key) == fs[i].val
  {
  }

  /** Every value deep-equals itself. */
  lemma {:induction false} DeepEqReflexive(v: Value)
    ensures DeepEq(v, v)
  {
    match v
    case VArr(xs) =>
      forall i | 0 <= i < |xs| ensures DeepEq(xs[i], xs[i]) {
        DeepEqReflexive(xs[i]);
      }
    case VObj(fs) =>
      forall i | 0 <= i < |fs| && IndexOf(FieldKeys(fs), fs[i].key) == i
        ensures DeepEq(fs[i].val, Get(v, fs[i].key))
      {
        GetFirstField(fs, i);
        DeepEqReflexive(fs[i].val);
      }
    case _ =>
  }
}
